=== FILE: README.md ===
# Udacity full-stack projects: selection, slicing and grouping rules

This Dafny project models the logic inside three small Flask applications of the
repository. Everything else in them is glue around a database.

- **Trivia API** (`Trivia`). The quiz question picker `get_random_question` and the
  response of POST /quizzes. The paginated question list of GET /questions, the
  category id→type map, the per-category listing and the case-insensitive question
  search.
- **Coffee shop API** (`CoffeeShop`). The drinks table as `map<int, Drink>` with the
  add, patch, delete and list handlers. Each handler returns either a success
  payload or an aborted status. The model also covers the JSON bodies of the error
  handlers.
- **Fyyur** (`Fyyur`). The venues page grouped into city areas. The past/upcoming
  split on the venue and artist pages. The venue and artist searches. The city-name
  normalisation in the two create handlers.

Supporting modules:

- `Wrappers` holds `Option`.
- `Seqs` holds `Filter`, the model of an ORM `filter(...).all()` over a table held
  in table order.
- `Text` holds:
  - Python's `str.strip()` and ASCII `str.lower()`;
  - SQL `LIKE` with its `%` and `_` wildcards;
  - `str(int)` with its parse inverse.

Modelling choices:

- The random number generator is a sequence `draws` of indices, each in `[0, n)`.
  The draws are consumed exactly as `random.randint` calls are. When the draws run
  out before the re-roll loop ends, the picker returns `Diverged`.
- Clocks are the integer parameter `now`.
- Keys the database hands out for new rows are parameters (`newId`, `newCityId`,
  `newVenueId`, `newArtistId`).
- SQL `LIKE` compares characters exactly, case included, as PostgreSQL's does.
  The Fyyur database URI lives in `config.py`, which is not part of this model.
  On a backend whose `LIKE` ignores ASCII case (SQLite) the Fyyur search lemmas
  `VenueSearchIsSubstring`, `ArtistSearchIsSubstring` and `BandNeedsItsCapital`
  do not describe the server.

The quiz picker follows the code:

- An empty pool is a 500, from `randint(0, -1)`.
- The nested re-roll loop only guarantees that the pick differs from the *last*
  previous id. `RepeatOfEarlierQuestion` exhibits a repeat of an earlier one.
- No re-roll happens once `len(previous_questions) >= n`.
- `forceEnd` is `n == len(previous_questions) + 1`.

The Fyyur searches follow the code too: `name.contains(term)` is a LIKE, which is
case-sensitive under the choice above. The comment above `search_artists`
(`app.py:311-312`) expects "band" to find "The Wild Sax Band";
`BandNeedsItsCapital` shows that it does not. The examples above `search_venues`
(`app.py:184-185`) use the names' own capitals and are found either way.

## Model

| member | source | states |
|---|---|---|
| Trivia.CategoryMap | projects/02_trivia_api/starter/backend/flaskr/__init__.py:27-28 | the map's keys are exactly the category ids, and each id maps to the type of the last row with that id (dict-comprehension overwrite) |
| Trivia.CategoryMapUnique | projects/02_trivia_api/starter/backend/flaskr/__init__.py:28 | with distinct ids, every category's id maps to its own type |
| Trivia.PySlice | projects/02_trivia_api/starter/backend/flaskr/__init__.py:47 | a Python slice never exceeds the list, and for in-order non-negative bounds it is the clipped sub-sequence |
| Trivia.PageOf | projects/02_trivia_api/starter/backend/flaskr/__init__.py:43-47 | a page holds at most 10 questions; page p >= 1 is the slice [(p-1)*10, p*10) clipped to the list; page 0 is empty |
| Trivia.ListQuestions | projects/02_trivia_api/starter/backend/flaskr/__init__.py:34-51 | GET /questions succeeds; its questions are exactly the slice [(page-1)*10, page*10) of the table, clipped for page >= 1, empty for page 0, counted from the end for a negative page; total_questions is the whole table's size, categories is the id-to-type map and current_category is 1 |
| Trivia.PagesTile | projects/02_trivia_api/starter/backend/flaskr/__init__.py:43-47 | pages 1..m concatenated are the first min(10m, n) questions, so consecutive pages neither skip nor repeat a question |
| Trivia.QuestionOnItsPage | projects/02_trivia_api/starter/backend/flaskr/__init__.py:43-47 | question i sits on page i/10+1 at position i%10 |
| Trivia.NegativePageCountsFromEnd | projects/02_trivia_api/starter/backend/flaskr/__init__.py:37-47 | a negative page number is not rejected: with 25 questions, page -1 is the slice [5, 15) that Python's negative indices produce |
| Trivia.QuestionsByCategory | projects/02_trivia_api/starter/backend/flaskr/__init__.py:94-102 | exactly the questions of the category are listed, none more often than it is stored, totalQuestions is their number and currentCategory is the requested id |
| Trivia.SearchRequest | projects/02_trivia_api/starter/backend/flaskr/__init__.py:80-92 | a body without `searchTerm` is a 500; otherwise the reply lists exactly the matching questions, none more often than it is stored, with their number and currentCategory 1 |
| Trivia.SearchQuestions | projects/02_trivia_api/starter/backend/flaskr/__init__.py:80-92 | exactly the questions whose lower-cased text is LIKE '%'+lower(term)+'%' are listed, none more often than it is stored, totalQuestions is their number, currentCategory is 1 |
| Trivia.SearchIsCaseInsensitiveSubstring | projects/02_trivia_api/starter/backend/flaskr/__init__.py:84-86 | for a term without LIKE wildcards, a question is found iff the lower-cased term is a substring of the lower-cased question |
| Trivia.EmptySearchListsAll | projects/02_trivia_api/starter/backend/flaskr/__init__.py:84-86 | the empty term lists the whole table in order |
| Trivia.SortById | projects/02_trivia_api/starter/backend/flaskr/__init__.py:116-119 | `order_by('id')` yields a permutation of its input in ascending id order |
| Trivia.SortOfSorted | projects/02_trivia_api/starter/backend/flaskr/__init__.py:116-119 | ordering an already ordered pool leaves it unchanged |
| Trivia.Pool | projects/02_trivia_api/starter/backend/flaskr/__init__.py:115-119 | the pool is sorted by id and is a permutation of the questions of the category when cat_id > 0, and of all questions otherwise |
| Trivia.Reroll | projects/02_trivia_api/starter/backend/flaskr/__init__.py:127-128 | the inner while loop ends at an index in range whose id differs from p, having consumed a prefix of the draws; it runs out only if every draw hit id p |
| Trivia.RerollAll | projects/02_trivia_api/starter/backend/flaskr/__init__.py:126-128 | after the for loop, the index is in range and its id differs from the last previous id (not necessarily from earlier ones); with no previous ids the first draw stands |
| Trivia.PickFrom | projects/02_trivia_api/starter/backend/flaskr/__init__.py:121-133 | an empty pool crashes; a pick is a pool element; forceEnd iff n == k+1; for 0 < k < n the pick differs from the last previous id; running out of draws is only possible when re-rolls happen |
| Trivia.PickQuestion | projects/02_trivia_api/starter/backend/flaskr/__init__.py:114-133 | the same guarantees stated over the question table and the requested category |
| Trivia.NoRerollWhenPoolSeen | projects/02_trivia_api/starter/backend/flaskr/__init__.py:125 | when k >= n the first draw is returned unchanged, even if already seen, with forceEnd false |
| Trivia.FirstQuestionIsFirstDraw | projects/02_trivia_api/starter/backend/flaskr/__init__.py:123-132 | with no previous questions the first draw is returned, and forceEnd holds iff the pool has one question |
| Trivia.RerollAllExtends | projects/02_trivia_api/starter/backend/flaskr/__init__.py:125-128 | once the loop finishes on some draws, extra draws after them do not change the result |
| Trivia.PickIgnoresUnusedDraws | projects/02_trivia_api/starter/backend/flaskr/__init__.py:114-133 | a completed pick is unaffected by draws appended after those it consumed |
| Trivia.RepeatOfEarlierQuestion | projects/02_trivia_api/starter/backend/flaskr/__init__.py:125-128 | with pool ids 1,2,3, previous [1,2] and draws 0,1,0, the picker returns question 1 again |
| Trivia.OneSeenOfTwo | projects/02_trivia_api/starter/backend/flaskr/__init__.py:125-132 | in a two-question category with one seen, any completed pick is the unseen one and forces the end |
| Trivia.PlayQuiz | projects/02_trivia_api/starter/backend/flaskr/__init__.py:104-112 | POST /quizzes answers 500 when `quiz_category`, its `id` or `previous_questions` is missing; otherwise it answers 500 iff the pool is empty; a question sent back is in the table, of the requested category when its id is positive, with forceEnd iff n == k+1 |
| CoffeeShop.ErrorPayload | projects/03_coffee_shop_full_stack/starter_code/backend/src/api.py:177-210 | exactly 400, 404, 422 and 500 have a handler, whose body has success false and error equal to the code |
| CoffeeShop.ListDrinks | projects/03_coffee_shop_full_stack/starter_code/backend/src/api.py:31-75 | an empty table aborts with 400 (the inner 404 re-aborted); otherwise one entry per stored drink, with that drink and the requested projection, each id once |
| CoffeeShop.AddDrink | projects/03_coffee_shop_full_stack/starter_code/backend/src/api.py:88-106 | succeeds iff a body with both title and recipe arrives and the new key is free; failure is 400 with the table unchanged; success adds exactly the new drink and echoes its long form |
| CoffeeShop.PatchDrink | projects/03_coffee_shop_full_stack/starter_code/backend/src/api.py:122-143 | succeeds iff a body arrives and the id is stored; a missing id is 400, not 404; title and recipe change iff provided; all other drinks are unchanged |
| CoffeeShop.DeleteDrink | projects/03_coffee_shop_full_stack/starter_code/backend/src/api.py:157-169 | succeeds iff the id is stored, removes exactly that drink and echoes its id; a missing id is 400 with the table unchanged |
| CoffeeShop.AddThenDelete | projects/03_coffee_shop_full_stack/starter_code/backend/src/api.py:88-169 | deleting a drink just added restores the table and echoes its id |
| CoffeeShop.DeletedIsGone | projects/03_coffee_shop_full_stack/starter_code/backend/src/api.py:122-169 | after a delete, patching or deleting the same id aborts with 400 |
| CoffeeShop.PatchIdempotent | projects/03_coffee_shop_full_stack/starter_code/backend/src/api.py:122-143 | repeating the same patch leaves the table as the first patch left it |
| CoffeeShop.EmptyPatchChangesNothing | projects/03_coffee_shop_full_stack/starter_code/backend/src/api.py:134-140 | a patch with neither title nor recipe succeeds and changes nothing |
| CoffeeShop.NeverNotFound | projects/03_coffee_shop_full_stack/starter_code/backend/src/api.py:88-169 | the drink handlers only ever answer 200 or 400 |
| Fyyur.FirstArea | projects/01_fyyur/starter_code/app.py:159 | the index of the first area of the city, or none when no area has it |
| Fyyur.AddToAreas | projects/01_fyyur/starter_code/app.py:169-178 | a venue joins its city's first area (the one `next` returns), and only when that area is at a non-zero index; otherwise a new area with the city's name and state and just this venue is appended |
| Fyyur.GroupAreas | projects/01_fyyur/starter_code/app.py:158-178 | every venue yields exactly one item, filed under an area of its own city; no area is empty; a city has two areas only if it is the first area's city, and each of those areas holds one venue |
| Fyyur.VenuesPage | projects/01_fyyur/starter_code/app.py:153-179 | GET /venues fails iff some venue has no city row; otherwise the areas hold exactly one item per venue (as multisets), grouped as above, each filed under its venue's city |
| Fyyur.VenueItemIdsDistinct | projects/01_fyyur/starter_code/app.py:164 | the item id is `str(venue.id)`, so distinct venues get distinct item ids |
| Fyyur.FirstCitySplits | projects/01_fyyur/starter_code/app.py:169 | two venues of the first area's city yield two one-venue areas (index 0 is falsy) |
| Fyyur.TwoCities | projects/01_fyyur/starter_code/app.py:169-178 | two venues of different cities give two one-venue areas in order of creation, each with its city's name and state |
| Fyyur.LaterCityJoins | projects/01_fyyur/starter_code/app.py:169-170 | a venue of the second area's city joins that area |
| Fyyur.SplitShows | projects/01_fyyur/starter_code/app.py:207-215 | past shows start before now, upcoming ones at or after it; together they are exactly the page's shows, and each count is its list's length |
| Fyyur.ShowVenue | projects/01_fyyur/starter_code/app.py:199-238 | an unknown venue is a 500; otherwise a show is listed as past (upcoming) iff it is a stored show of the venue with an existing artist starting before (at or after) now, no stored show is listed more often than it is stored, and each count is its list's length |
| Fyyur.ShowArtist | projects/01_fyyur/starter_code/app.py:327-364 | the same for an artist: a show is past (upcoming) iff it is a stored show of the artist starting before (at or after) now, no stored show is listed more often than it is stored, and each count is its list's length |
| Fyyur.SearchVenues | projects/01_fyyur/starter_code/app.py:182-196 | count equals the number of results; a venue is listed iff its name is LIKE '%term%' and it has a show starting at or after now; with distinct venue ids no venue is listed twice, so count is the number of matching venues |
| Fyyur.VenueSearchIsSubstring | projects/01_fyyur/starter_code/app.py:188-189 | for a wildcard-free term, a venue is listed iff the term is a case-sensitive substring of its name and it has a show from now on |
| Fyyur.SearchCountsPastShows | projects/01_fyyur/starter_code/app.py:193 | `num_upcoming_shows` in the search counts all the venue's shows, past ones included |
| Fyyur.SearchArtists | projects/01_fyyur/starter_code/app.py:309-324 | the artist search, with the same count, membership and no-repeat guarantees |
| Fyyur.BandNeedsItsCapital | projects/01_fyyur/starter_code/app.py:311-316 | the search is case-sensitive: "band" does not find "The Wild Sax Band", while "Band" does |
| Fyyur.ArtistSearchIsSubstring | projects/01_fyyur/starter_code/app.py:315-316 | for a wildcard-free term, an artist is listed iff the term is a substring of its name and it has a show from now on |
| Fyyur.NormaliseCity | projects/01_fyyur/starter_code/app.py:260 | a normalised city name has no surrounding whitespace, no upper-case letter, and is no longer than the input |
| Fyyur.NormaliseSurrounded | projects/01_fyyur/starter_code/app.py:260 | a name padded with whitespace normalises to exactly the name lower-cased |
| Fyyur.NormaliseKeepsCanonical | projects/01_fyyur/starter_code/app.py:260-265 | a stripped lower-case name is stored as typed, so distinct such names give distinct cities |
| Fyyur.NormaliseIdempotent | projects/01_fyyur/starter_code/app.py:260 | normalising twice is normalising once |
| Fyyur.NormaliseIgnoresCaseAndSpace | projects/01_fyyur/starter_code/app.py:260-265 | names differing only in ASCII letter case and surrounding whitespace normalise to the same city name |
| Fyyur.FindCityByName | projects/01_fyyur/starter_code/app.py:260 | a city found by the name query is a stored row carrying exactly that name; nothing is found only when no stored city has the name |
| Fyyur.ResolveCity | projects/01_fyyur/starter_code/app.py:260-265 | the existing city with the normalised name is reused; otherwise a new row is added when the form has a state; the city found afterwards is the one used |
| Fyyur.CreateVenue | projects/01_fyyur/starter_code/app.py:254-288 | the venue is listed iff all its fields are present and a city can be resolved; a missing name makes the error flash itself raise a form-key error, a 400 (500 in debug mode); a failure changes nothing; success appends a venue carrying exactly the form's name, address, phone and facebook link under its city, and adds a city only if none had the name |
| Fyyur.CreateArtist | projects/01_fyyur/starter_code/app.py:434-473 | the same for an artist (name, phone and facebook link stored as given), except that every failure is a 500, because the error flash reads `data.name`, an attribute the form does not have |
| Fyyur.SecondVenueReusesCity | projects/01_fyyur/starter_code/app.py:260-265 | a second venue whose city name normalises to the first one's adds no city row |
| Fyyur.CreateKeepsCityNamesUnique | projects/01_fyyur/starter_code/app.py:260-265 | if city names are unique before a venue creation, they are unique after it |
| Text.Strip | projects/01_fyyur/starter_code/app.py:260 | `str.strip()` leaves no whitespace at either end and only removes characters |
| Text.StripIgnoresSurrounding | projects/01_fyyur/starter_code/app.py:260 | whitespace around a stripped text does not change the result |
| Text.Lower | projects/02_trivia_api/starter/backend/flaskr/__init__.py:84 | ASCII lower-casing keeps the length, maps each of A–Z to its lower-case letter (code + 32) and changes no other character |
| Text.StripLowerCommute | projects/01_fyyur/starter_code/app.py:260 | stripping and lower-casing commute |
| Text.SurroundedLikeIsSubstring | projects/02_trivia_api/starter/backend/flaskr/__init__.py:84-86 | for a wildcard-free term t, text LIKE '%t%' holds iff t occurs in the text |
| Text.ParseIntToString | projects/01_fyyur/starter_code/app.py:164 | the decimal text of an integer parses back to the integer |
| Text.IntToStringInjective | projects/01_fyyur/starter_code/app.py:164 | distinct integers have distinct decimal texts |
| Seqs.FilterPartition | projects/01_fyyur/starter_code/app.py:207-215 | two disjoint filters covering a condition split its matches without loss or overlap |

## Left out

- Database sessions, commit/rollback/close, migrations and model declarations are
  not modelled. A query is a filter over a table held as a sequence in table order.
  Row order of unordered queries is taken to be table order.
- Flask routing, `jsonify`, `render_template`, `flash` text, and the CORS headers
  (`flaskr/__init__.py:17-23`) are framework glue.
- `requires_auth` and `AuthError` in `api.py` are not modelled, because the
  token/JWT validation is not part of this model.
- `Drink.short()`, `Drink.long()` and `Question.format()` are tagged projections.
  The model does not look inside them.
- `json.dumps` of the recipe is an opaque encoding. The model stores the recipe as
  the client sent it.
- `format_datetime` and all `strftime` formatting of show times are date and locale
  library calls.
- Fyyur.VenuesPage: `app.py:161` reads the clock once per venue; the model counts
  every venue against one instant `now`. In the source a show of a later venue that
  starts between two reads is not counted as upcoming in the source; the model's
  `num_upcoming_shows` agrees with the source only when all the reads return the
  same time.
- The difference between `datetime.now()` on the venues and search pages and
  `datetime.utcnow()` on the detail pages is not modelled. It is a time-zone matter;
  both are the parameter `now`.
- The model proves nothing about the distribution of the quiz draws or the
  probability that the re-roll loop ends. The draws are an oracle.
- Trivia.PickFrom: running out of draws is the model's `Diverged`. The server would
  keep drawing; the model does not bound how long.
- POST /questions, DELETE /questions/<id>, GET /categories as a separate route and
  the integration tests of the trivia app are outside the modelled core. Several
  of those tests expect statuses the code does not produce.
- The Fyyur stub and TODO handlers (`app.py:291-298`, `app.py:369-422`), the
  artists and shows listings and `create_show` are not modelled.
- Fyyur genre handling, and its failures, are not modelled. A genre name longer
  than the column allows, or a genre listed twice in the form, makes the insert
  fail and lands in the `except` clause. Fyyur.CreateVenue and Fyyur.CreateArtist
  state "listed iff the fields are present and a city resolves" on the assumption
  that the genre loop succeeds.
- Columns a create handler does not set (website, image link, seeking flags) are
  not modelled. Neither are database column-length limits or key collisions.
- Fyyur.ShowVenue: the two clock reads of the page (`app.py:208` and `app.py:215`)
  are modelled as one instant `now`. In the source a show starting between the two
  reads is in neither list; the model's "every show of the venue is past or
  upcoming" holds only when both reads return the same time.
- Fyyur.ShowArtist: the same single instant stands for the two clock reads at
  `app.py:335` and `app.py:341`.
- Fyyur.ShowVenue: the page's `genres` list and the other display-only fields are
  left out. The contract speaks about the shows and the 500 case.
- Text.Lower: only ASCII A–Z are folded. Python's `str.lower()` and SQL `lower()`
  also fold non-ASCII letters.
- Text.Like: the `\` escape of SQL LIKE is not modelled. The substring lemmas
  therefore exclude terms containing `%`, `_` or `\`.

=== FILE: coffee_shop.dfy ===
/** The coffee-shop menu API: the drinks table as a map from id to drink, and the
    four handlers that read and change it. Every handler wraps its body in a bare
    `try/except` that re-aborts with 400, so an inner 404 surfaces as 400.
    `Drink.short()` / `Drink.long()` are opaque projections, tagged by `Detail`;
    the recipe is kept as the value the client sent (its JSON encoding is left out). */
module CoffeeShop {
  import opened Wrappers

  datatype Ingredient = Ingredient(name: string, color: string, parts: int)

  type Recipe = seq<Ingredient>

  datatype Drink = Drink(title: string, recipe: Recipe)

  /** The drinks table, keyed by primary key. */
  type Store = map<int, Drink>

  /** The JSON body of a POST or PATCH; an absent key and a JSON null both read as None. */
  datatype DrinkBody = DrinkBody(title: Option<string>, recipe: Option<Recipe>)

  datatype Detail = Short | Long

  /** `drink.short()` or `drink.long()` of the drink stored under `id`. */
  datatype DrinkView = DrinkView(id: int, drink: Drink, detail: Detail)

  /** The success bodies; each is sent with `"success": True`. */
  datatype Payload =
    | DrinkList(drinks: seq<DrinkView>)
    | Created(created: DrinkView)
    | Updated(updated: seq<DrinkView>)
    | Deleted(deleted: int)

  datatype Reply = Ok(payload: Payload) | Abort(code: int)

  /** A handler's reply together with the table after the request. */
  datatype Outcome = Outcome(reply: Reply, store: Store)

  function Status(r: Reply): int {
    match r
    case Ok(_) => 200
    case Abort(c) => c
  }

  // ---------------------------------------------------------------------------
  // Error handlers
  // ---------------------------------------------------------------------------

  datatype ErrorBody = ErrorBody(success: bool, message: string, error: int)

  /** The JSON body the registered error handler sends for `code`; None when the
      application registers no handler for that code. */
  function ErrorPayload(code: int): (r: Option<ErrorBody>)
    ensures r.Some? <==> code in {400, 404, 422, 500}
    ensures r.Some? ==> !r.value.success && r.value.error == code
  {
    if code == 400 then Some(ErrorBody(false, "Bad request", 400))
    else if code == 404 then Some(ErrorBody(false, "Resources not found ", 404))
    else if code == 422 then Some(ErrorBody(false, "Unprocessable entity", 422))
    else if code == 500 then Some(ErrorBody(false, "Unexpected Error", 500))
    else None
  }

  // ---------------------------------------------------------------------------
  // Handlers
  // ---------------------------------------------------------------------------

  /** POST /drinks. `body` is None when the request carries no JSON object;
      `newId` is the key the database hands out for the inserted row, and the
      insert fails if that key is already taken. */
  function AddDrink(store: Store, body: Option<DrinkBody>, newId: int): (r: Outcome)
    ensures r.reply.Ok? <==>
      body.Some? && body.value.title.Some? && body.value.recipe.Some? && newId !in store
    ensures r.reply.Abort? ==> r.reply.code == 400 && r.store == store
    ensures r.reply.Ok? ==>
      && r.store.Keys == store.Keys + {newId}
      && |r.store| == |store| + 1
      && r.store[newId] == Drink(body.value.title.value, body.value.recipe.value)
      && (forall k :: k in store ==> r.store[k] == store[k])
      && r.reply.payload == Created(DrinkView(newId, r.store[newId], Long))
  {
    if body.None? then Outcome(Abort(400), store)
    else if body.value.title.None? || body.value.recipe.None? then Outcome(Abort(400), store)
    else if newId in store then Outcome(Abort(400), store)
    else
      var d := Drink(body.value.title.value, body.value.recipe.value);
      Outcome(Ok(Created(DrinkView(newId, d, Long))), store[newId := d])
  }

  /** PATCH /drinks/<id>: overwrites the title and the recipe, each only when the body
      provides it. A missing drink aborts with 404 inside the `try`, which the
      `except` turns into 400. */
  function PatchDrink(store: Store, id: int, body: Option<DrinkBody>): (r: Outcome)
    ensures r.reply.Ok? <==> body.Some? && id in store
    ensures r.reply.Abort? ==> r.reply.code == 400 && r.store == store
    ensures r.reply.Ok? ==>
      && r.store.Keys == store.Keys
      && (forall k :: k in store && k != id ==> r.store[k] == store[k])
      && (body.value.title.Some? ==> r.store[id].title == body.value.title.value)
      && (body.value.title.None? ==> r.store[id].title == store[id].title)
      && (body.value.recipe.Some? ==> r.store[id].recipe == body.value.recipe.value)
      && (body.value.recipe.None? ==> r.store[id].recipe == store[id].recipe)
      && r.reply.payload == Updated([DrinkView(id, r.store[id], Long)])
  {
    if body.None? || id !in store then Outcome(Abort(400), store)
    else
      var d := store[id];
      var d1 := if body.value.title.Some? then d.(title := body.value.title.value) else d;
      var d2 := if body.value.recipe.Some? then d1.(recipe := body.value.recipe.value) else d1;
      Outcome(Ok(Updated([DrinkView(id, d2, Long)])), store[id := d2])
  }

  /** DELETE /drinks/<id>: removes that drink and echoes its id; a missing drink is
      reported as 400 for the same reason as in PATCH. */
  function DeleteDrink(store: Store, id: int): (r: Outcome)
    ensures r.reply.Ok? <==> id in store
    ensures r.reply.Abort? ==> r.reply.code == 400 && r.store == store
    ensures r.reply.Ok? ==>
      && r.store.Keys == store.Keys - {id}
      && |r.store| == |store| - 1
      && (forall k :: k in r.store ==> r.store[k] == store[k])
      && r.reply.payload == Deleted(id)
  {
    if id !in store then Outcome(Abort(400), store)
    else Outcome(Ok(Deleted(id)), store - {id})
  }

  /** Some entry of `views` shows the drink stored under `k`. */
  predicate Lists(views: seq<DrinkView>, k: int) {
    exists i :: 0 <= i < |views| && views[i].id == k
  }

  /** GET /drinks (`detail == Short`) and GET /drinks-detail (`detail == Long`): one
      entry per stored drink; the table has no ORDER BY, so any order is allowed.
      An empty table aborts with 404 inside the `try`, which surfaces as 400. */
  method ListDrinks(store: Store, detail: Detail) returns (reply: Reply)
    ensures reply.Abort? <==> |store| == 0
    ensures reply.Abort? ==> reply.code == 400
    ensures reply.Ok? ==> reply.payload.DrinkList? && |reply.payload.drinks| == |store|
    ensures reply.Ok? ==> forall i :: 0 <= i < |reply.payload.drinks| ==>
      var v := reply.payload.drinks[i];
      v.id in store && v.drink == store[v.id] && v.detail == detail
    ensures reply.Ok? ==> forall k :: k in store ==> Lists(reply.payload.drinks, k)
    ensures reply.Ok? ==> forall i, j :: 0 <= i < j < |reply.payload.drinks| ==>
      reply.payload.drinks[i].id != reply.payload.drinks[j].id
  {
    var remaining := store.Keys;
    var views: seq<DrinkView> := [];
    while remaining != {}
      invariant remaining <= store.Keys
      invariant |views| + |remaining| == |store.Keys|
      invariant forall i :: 0 <= i < |views| ==>
        views[i].id in store && views[i].id !in remaining
        && views[i].drink == store[views[i].id] && views[i].detail == detail
      invariant forall k :: k in store && k !in remaining ==> Lists(views, k)
      invariant forall i, j :: 0 <= i < j < |views| ==> views[i].id != views[j].id
      decreases remaining
    {
      // The loop guard says `remaining` is not empty; refuting the opposite in a
      // branch of its own is what lets the verifier pick `k` below.
      if forall j :: j !in remaining {
        assert false;
      }
      var k :| k in remaining;
      var next := views + [DrinkView(k, store[k], detail)];
      forall j | j in store && j !in remaining - {k}
        ensures Lists(next, j)
      {
        if j == k {
          assert next[|views|].id == k;
        } else {
          var i :| 0 <= i < |views| && views[i].id == j;
          assert next[i].id == j;
        }
      }
      views := next;
      remaining := remaining - {k};
    }
    if |views| == 0 {
      reply := Abort(400);
    } else {
      reply := Ok(DrinkList(views));
    }
  }

  // ---------------------------------------------------------------------------
  // Properties relating several requests
  // ---------------------------------------------------------------------------

  /** Deleting the drink just added restores the table. */
  lemma AddThenDelete(store: Store, body: Option<DrinkBody>, newId: int)
    requires AddDrink(store, body, newId).reply.Ok?
    ensures DeleteDrink(AddDrink(store, body, newId).store, newId) == Outcome(Ok(Deleted(newId)), store)
  {
    var s1 := AddDrink(store, body, newId).store;
    assert s1 - {newId} == store;
  }

  /** Once deleted, a drink can be neither patched nor deleted again: both report 400. */
  lemma DeletedIsGone(store: Store, id: int, body: Option<DrinkBody>)
    requires DeleteDrink(store, id).reply.Ok?
    ensures PatchDrink(DeleteDrink(store, id).store, id, body).reply == Abort(400)
    ensures DeleteDrink(DeleteDrink(store, id).store, id).reply == Abort(400)
  {
  }

  /** Sending the same PATCH twice leaves the table as the first one did. */
  lemma PatchIdempotent(store: Store, id: int, body: Option<DrinkBody>)
    ensures PatchDrink(PatchDrink(store, id, body).store, id, body).store == PatchDrink(store, id, body).store
  {
  }

  /** A PATCH that provides neither field succeeds and changes nothing. */
  lemma EmptyPatchChangesNothing(store: Store, id: int)
    requires id in store
    ensures PatchDrink(store, id, Some(DrinkBody(None, None))) ==
      Outcome(Ok(Updated([DrinkView(id, store[id], Long)])), store)
  {
    assert store[id := store[id]] == store;
  }

  /** No handler of this API ever answers 404: every failure it reports is 400. */
  lemma NeverNotFound(store: Store, id: int, body: Option<DrinkBody>, newId: int)
    ensures Status(AddDrink(store, body, newId).reply) in {200, 400}
    ensures Status(PatchDrink(store, id, body).reply) in {200, 400}
    ensures Status(DeleteDrink(store, id).reply) in {200, 400}
  {
  }
}

=== FILE: fyyur.dfy ===
/** The venue/artist/show directory: the venues page grouped by city, the past and
    upcoming split of a venue's or an artist's shows, the search responses, and the
    city-name normalisation of the two create handlers. ORM queries are filters over
    the tables held as sequences in table order; the clock is the parameter `now`. */
module Fyyur {
  import opened Wrappers
  import opened Seqs
  import opened Text

  datatype City = City(id: int, name: string, state: string)

  datatype Venue = Venue(id: int, name: string, cityId: int, address: string, phone: string, facebookLink: string)

  datatype Artist = Artist(id: int, name: string, cityId: int, phone: string, facebookLink: string)

  /** A show; `startTime` is a timestamp on the same scale as `now`. */
  datatype Show = Show(id: int, venueId: int, artistId: int, startTime: int)

  datatype Db = Db(cities: seq<City>, venues: seq<Venue>, artists: seq<Artist>, shows: seq<Show>)

  /** A rendered page, or the 500 of an unhandled exception (an attribute read on None). */
  datatype Response<T> = Rendered(page: T) | ServerError

  /** The `city` relationship: the city row with that primary key. */
  function FindCity(cities: seq<City>, id: int): (r: Option<City>)
    ensures r.Some? ==> r.value in cities && r.value.id == id
    ensures r.None? ==> forall c :: c in cities ==> c.id != id
  {
    if |cities| == 0 then None
    else if cities[0].id == id then Some(cities[0])
    else FindCity(cities[1..], id)
  }

  // ---------------------------------------------------------------------------
  // GET /venues: venues grouped into city areas
  // ---------------------------------------------------------------------------

  datatype VenueItem = VenueItem(id: string, name: string, numUpcomingShows: nat)

  datatype Area = Area(city: string, state: string, venues: seq<VenueItem>)

  /** One venue of the loop, with its resolved city. */
  datatype Row = Row(city: City, item: VenueItem)

  function ShowsAfter(venueId: int, now: int): Show -> bool {
    (s: Show) => s.venueId == venueId && s.startTime > now
  }

  /** The venue's entry on the venues page; its upcoming shows are those starting
      strictly after `now`. */
  function VenueItemOf(shows: seq<Show>, v: Venue, now: int): (r: VenueItem)
    ensures r.numUpcomingShows <= |shows|
  {
    VenueItem(IntToString(v.id), v.name, |Filter(shows, ShowsAfter(v.id, now))|)
  }

  /** `next((i for i, item in enumerate(data) if item['city'] == name), None)`. */
  function FirstArea(data: seq<Area>, name: string): (r: Option<nat>)
    ensures r.Some? ==> r.value < |data| && data[r.value].city == name
    ensures r.Some? ==> forall j :: 0 <= j < r.value ==> data[j].city != name
    ensures r.None? ==> forall j :: 0 <= j < |data| ==> data[j].city != name
  {
    if |data| == 0 then None
    else if data[0].city == name then Some(0)
    else match FirstArea(data[1..], name)
      case None => None
      case Some(i) => Some(i + 1)
  }

  /** All venue items of the areas, area by area. */
  function Flatten(areas: seq<Area>): seq<VenueItem> {
    if |areas| == 0 then [] else Flatten(areas[..|areas| - 1]) + areas[|areas| - 1].venues
  }

  /** A venue whose city already has an area joins it when that area is not the
      first one; for index 0, `if item_index:` is false. */
  predicate Joins(data: seq<Area>, name: string) {
    |data| > 0 && data[0].city != name && exists i :: 0 < i < |data| && data[i].city == name
  }

  /** One iteration of the loop of `venues()`. */
  function AddToAreas(data: seq<Area>, row: Row): (r: seq<Area>)
    ensures Joins(data, row.city.name) ==> |r| == |data|
    ensures Joins(data, row.city.name) ==>
      exists i :: 0 < i < |data| && data[i].city == row.city.name && FirstArea(data, row.city.name) == Some(i)
        && r == data[i := data[i].(venues := data[i].venues + [row.item])]
    ensures !Joins(data, row.city.name) ==> r == data + [Area(row.city.name, row.city.state, [row.item])]
  {
    match FirstArea(data, row.city.name)
    case Some(i) =>
      if i != 0 then data[i := data[i].(venues := data[i].venues + [row.item])]
      else data + [Area(row.city.name, row.city.state, [row.item])]
    case None => data + [Area(row.city.name, row.city.state, [row.item])]
  }

  lemma {:induction false} FlattenAppendArea(data: seq<Area>, a: Area)
    ensures Flatten(data + [a]) == Flatten(data) + a.venues
  {
    assert (data + [a])[..|data|] == data;
  }

  lemma {:induction false} FlattenExtendArea(data: seq<Area>, i: nat, x: VenueItem)
    requires i < |data|
    ensures multiset(Flatten(data[i := data[i].(venues := data[i].venues + [x])]))
         == multiset(Flatten(data)) + multiset{x}
    decreases |data|
  {
    var d2 := data[i := data[i].(venues := data[i].venues + [x])];
    var n := |data| - 1;
    if i == n {
      assert d2[..n] == data[..n];
    } else {
      assert d2[..n] == data[..n][i := data[i].(venues := data[i].venues + [x])];
      FlattenExtendArea(data[..n], i, x);
    }
  }

  /** `(city, item)` is the row of some venue. */
  predicate FromRow(rows: seq<Row>, city: string, item: VenueItem) {
    exists k :: 0 <= k < |rows| && rows[k].city.name == city && rows[k].item == item
  }

  function Items(rows: seq<Row>): (r: seq<VenueItem>)
    ensures |r| == |rows|
    ensures forall k :: 0 <= k < |rows| ==> r[k] == rows[k].item
  {
    seq(|rows|, k requires 0 <= k < |rows| => rows[k].item)
  }

  /** The shape the grouping keeps: no empty area; two areas share a city only if it
      is the first area's city; every area with the first area's city holds exactly
      one venue. */
  predicate WellGrouped(r: seq<Area>) {
    && (forall i :: 0 <= i < |r| ==> |r[i].venues| >= 1)
    && (forall i, j :: 0 < i < j < |r| && r[i].city == r[j].city ==> r[i].city == r[0].city)
    && (forall i :: 0 <= i < |r| && r[i].city == r[0].city ==> |r[i].venues| == 1)
  }

  /** Every item of every area is the item of a venue filed under that area's city. */
  predicate AllFromRows(rows: seq<Row>, r: seq<Area>) {
    forall i, j :: 0 <= i < |r| && 0 <= j < |r[i].venues| ==> FromRow(rows, r[i].city, r[i].venues[j])
  }

  /** What the grouping loop keeps: each venue yields exactly one item, under its city. */
  predicate GroupedFrom(rows: seq<Row>, r: seq<Area>) {
    && multiset(Flatten(r)) == multiset(Items(rows))
    && |Flatten(r)| == |rows|
    && |r| <= |rows|
    && WellGrouped(r)
    && AllFromRows(rows, r)
  }

  /** The loop of `venues()` over the venues in table order. */
  function GroupLoop(rows: seq<Row>): seq<Area> {
    if |rows| == 0 then [] else AddToAreas(GroupLoop(rows[..|rows| - 1]), rows[|rows| - 1])
  }

  lemma {:induction false} GroupLoopGroups(rows: seq<Row>)
    ensures GroupedFrom(rows, GroupLoop(rows))
  {
    if |rows| > 0 {
      var init := rows[..|rows| - 1];
      var row := rows[|rows| - 1];
      GroupLoopGroups(init);
      GroupStep(init, row, GroupLoop(init));
      GroupSnoc(init, row);
      SnocLast(rows);
    }
  }

  /** The areas of the venues page, built by the loop of `venues()`. */
  function GroupAreas(rows: seq<Row>): (r: seq<Area>)
    ensures GroupedFrom(rows, r)
  {
    GroupLoopGroups(rows);
    GroupLoop(rows)
  }

  lemma SnocLast(rows: seq<Row>)
    requires |rows| > 0
    ensures rows[..|rows| - 1] + [rows[|rows| - 1]] == rows
  {
  }

  /** One iteration keeps the grouping invariant. */
  lemma GroupStep(init: seq<Row>, row: Row, data: seq<Area>)
    requires GroupedFrom(init, data)
    ensures GroupedFrom(init + [row], AddToAreas(data, row))
  {
    StepCounts(init, row, data);
    StepShape(data, row);
    StepRows(init, row, data);
  }

  lemma FromRowExtends(init: seq<Row>, row: Row, city: string, item: VenueItem)
    requires FromRow(init, city, item)
    ensures FromRow(init + [row], city, item)
  {
    var k :| 0 <= k < |init| && init[k].city.name == city && init[k].item == item;
    assert (init + [row])[k] == init[k];
  }

  lemma StepCounts(init: seq<Row>, row: Row, data: seq<Area>)
    requires multiset(Flatten(data)) == multiset(Items(init))
    requires |data| <= |init|
    ensures multiset(Flatten(AddToAreas(data, row))) == multiset(Items(init + [row]))
    ensures |Flatten(AddToAreas(data, row))| == |init + [row]|
    ensures |AddToAreas(data, row)| <= |init + [row]|
  {
    var r := AddToAreas(data, row);
    assert Items(init + [row]) == Items(init) + [row.item];
    if Joins(data, row.city.name) {
      var i :| 0 < i < |data| && data[i].city == row.city.name
        && r == data[i := data[i].(venues := data[i].venues + [row.item])];
      FlattenExtendArea(data, i, row.item);
    } else {
      FlattenAppendArea(data, Area(row.city.name, row.city.state, [row.item]));
    }
    assert |multiset(Flatten(r))| == |multiset(Items(init + [row]))|;
  }

  lemma StepShape(data: seq<Area>, row: Row)
    requires WellGrouped(data)
    ensures WellGrouped(AddToAreas(data, row))
  {
    if !Joins(data, row.city.name) && FirstArea(data, row.city.name).None? {
      assert forall j :: 0 <= j < |data| ==> data[j].city != row.city.name;
    }
  }

  lemma StepRows(init: seq<Row>, row: Row, data: seq<Area>)
    requires AllFromRows(init, data)
    ensures AllFromRows(init + [row], AddToAreas(data, row))
  {
    var rows := init + [row];
    var r := AddToAreas(data, row);
    assert FromRow(rows, row.city.name, row.item) by {
      assert rows[|init|] == row;
    }
    forall a, j | 0 <= a < |r| && 0 <= j < |r[a].venues|
      ensures FromRow(rows, r[a].city, r[a].venues[j])
    {
      if a < |data| && j < |data[a].venues| {
        assert r[a].city == data[a].city && r[a].venues[j] == data[a].venues[j];
        FromRowExtends(init, row, data[a].city, data[a].venues[j]);
      } else {
        assert r[a].city == row.city.name && r[a].venues[j] == row.item;
      }
    }
  }

  /** The resolved rows of the venues, or None if some venue's city is missing. */
  function VenueRows(db: Db, vs: seq<Venue>, now: int): (r: Option<seq<Row>>)
    ensures r.Some? <==> forall k :: 0 <= k < |vs| ==> FindCity(db.cities, vs[k].cityId).Some?
    ensures r.Some? ==> |r.value| == |vs|
    ensures r.Some? ==> forall k :: 0 <= k < |vs| ==>
      r.value[k] == Row(FindCity(db.cities, vs[k].cityId).value, VenueItemOf(db.shows, vs[k], now))
  {
    if forall k :: 0 <= k < |vs| ==> FindCity(db.cities, vs[k].cityId).Some? then
      Some(seq(|vs|, k requires 0 <= k < |vs| =>
        Row(FindCity(db.cities, vs[k].cityId).value, VenueItemOf(db.shows, vs[k], now))))
    else None
  }

  /** An item on the venues page, filed under `city`, belongs to a venue of that city. */
  predicate ListedVenue(db: Db, now: int, city: string, item: VenueItem) {
    exists v :: v in db.venues && item == VenueItemOf(db.shows, v, now) && FindCity(db.cities, v.cityId).Some? && city == FindCity(db.cities, v.cityId).value.name
  }

  /** One item per venue, in table order. */
  function VenueItems(db: Db, now: int): seq<VenueItem> {
    seq(|db.venues|, k requires 0 <= k < |db.venues| => VenueItemOf(db.shows, db.venues[k], now))
  }

  /** GET /venues: the city areas, or 500 when a venue's city row is missing. */
  function VenuesPage(db: Db, now: int): (r: Response<seq<Area>>)
    ensures r.ServerError? <==> exists v :: v in db.venues && FindCity(db.cities, v.cityId).None?
    ensures r.Rendered? ==> |Flatten(r.page)| == |db.venues|
    ensures r.Rendered? ==> multiset(Flatten(r.page)) == multiset(VenueItems(db, now))
    ensures r.Rendered? ==> WellGrouped(r.page)
    ensures r.Rendered? ==> forall i, j :: 0 <= i < |r.page| && 0 <= j < |r.page[i].venues| ==>
      ListedVenue(db, now, r.page[i].city, r.page[i].venues[j])
  {
    match VenueRows(db, db.venues, now)
    case None => ServerError
    case Some(rows) =>
      var areas := GroupAreas(rows);
      RowsAreListed(db, now, rows, areas);
      assert Items(rows) == VenueItems(db, now);
      Rendered(areas)
  }

  lemma RowsAreListed(db: Db, now: int, rows: seq<Row>, areas: seq<Area>)
    requires VenueRows(db, db.venues, now) == Some(rows)
    requires AllFromRows(rows, areas)
    ensures forall i, j :: 0 <= i < |areas| && 0 <= j < |areas[i].venues| ==>
      ListedVenue(db, now, areas[i].city, areas[i].venues[j])
  {
    forall i, j | 0 <= i < |areas| && 0 <= j < |areas[i].venues|
      ensures ListedVenue(db, now, areas[i].city, areas[i].venues[j])
    {
      assert FromRow(rows, areas[i].city, areas[i].venues[j]);
      var k :| 0 <= k < |rows| && rows[k].city.name == areas[i].city && rows[k].item == areas[i].venues[j];
      assert db.venues[k] in db.venues;
    }
  }

  /** The venue item's `id` is the decimal text of the venue's id, so distinct venues
      get distinct item ids. */
  lemma VenueItemIdsDistinct(shows: seq<Show>, v: Venue, w: Venue, now: int)
    requires v.id != w.id
    ensures VenueItemOf(shows, v, now).id != VenueItemOf(shows, w, now).id
  {
    if IntToString(v.id) == IntToString(w.id) {
      IntToStringInjective(v.id, w.id);
    }
  }

  lemma {:induction false} GroupSnoc(rows: seq<Row>, row: Row)
    ensures GroupLoop(rows + [row]) == AddToAreas(GroupLoop(rows), row)
  {
    assert (rows + [row])[..|rows|] == rows;
  }

  lemma GroupOne(r1: Row)
    ensures GroupLoop([r1]) == [Area(r1.city.name, r1.city.state, [r1.item])]
  {
    GroupSnoc([], r1);
    assert [] + [r1] == [r1];
  }

  lemma GroupTwo(r1: Row, r2: Row)
    ensures GroupLoop([r1, r2]) == AddToAreas([Area(r1.city.name, r1.city.state, [r1.item])], r2)
  {
    GroupOne(r1);
    GroupSnoc([r1], r2);
    assert [r1] + [r2] == [r1, r2];
  }

  lemma GroupThree(r1: Row, r2: Row, r3: Row)
    ensures GroupLoop([r1, r2, r3]) == AddToAreas(GroupLoop([r1, r2]), r3)
  {
    GroupSnoc([r1, r2], r3);
    assert [r1, r2] + [r3] == [r1, r2, r3];
  }

  /** Two venues in the same city whose area is the first area end up in two areas
      of that city, one venue each. */
  lemma FirstCitySplits(c: City, a: VenueItem, b: VenueItem)
    ensures GroupAreas([Row(c, a), Row(c, b)]) == [Area(c.name, c.state, [a]), Area(c.name, c.state, [b])]
  {
    GroupTwo(Row(c, a), Row(c, b));
    assert !Joins([Area(c.name, c.state, [a])], c.name);
    assert GroupAreas([Row(c, a), Row(c, b)]) == GroupLoop([Row(c, a), Row(c, b)]);
  }

  lemma TwoCities(c: City, d: City, a: VenueItem, b: VenueItem)
    requires c.name != d.name
    ensures GroupAreas([Row(c, a), Row(d, b)]) == [Area(c.name, c.state, [a]), Area(d.name, d.state, [b])]
  {
    TwoCityLoop(c, d, a, b);
    assert GroupAreas([Row(c, a), Row(d, b)]) == GroupLoop([Row(c, a), Row(d, b)]);
  }

  lemma TwoCityLoop(c: City, d: City, a: VenueItem, b: VenueItem)
    requires c.name != d.name
    ensures GroupLoop([Row(c, a), Row(d, b)]) == [Area(c.name, c.state, [a]), Area(d.name, d.state, [b])]
  {
    GroupTwo(Row(c, a), Row(d, b));
    assert !Joins([Area(c.name, c.state, [a])], d.name);
  }

  lemma JoinSecondArea(two: seq<Area>, d: City, x: VenueItem)
    requires |two| == 2 && two[0].city != d.name && two[1].city == d.name
    ensures AddToAreas(two, Row(d, x)) == [two[0], two[1].(venues := two[1].venues + [x])]
  {
    assert FirstArea(two[1..], d.name) == Some(0);
  }

  /** A third venue in the city of the second area joins that area. */
  lemma LaterCityJoins(c: City, d: City, a: VenueItem, b: VenueItem, x: VenueItem)
    requires c.name != d.name
    ensures GroupAreas([Row(c, a), Row(d, b), Row(d, x)])
         == [Area(c.name, c.state, [a]), Area(d.name, d.state, [b, x])]
  {
    ThreeRowLoop(c, d, a, b, x);
    assert GroupAreas([Row(c, a), Row(d, b), Row(d, x)]) == GroupLoop([Row(c, a), Row(d, b), Row(d, x)]);
  }

  lemma ThreeRowLoop(c: City, d: City, a: VenueItem, b: VenueItem, x: VenueItem)
    requires c.name != d.name
    ensures GroupLoop([Row(c, a), Row(d, b), Row(d, x)])
         == [Area(c.name, c.state, [a]), Area(d.name, d.state, [b, x])]
  {
    TwoCityLoop(c, d, a, b);
    GroupThree(Row(c, a), Row(d, b), Row(d, x));
    JoinSecondArea([Area(c.name, c.state, [a]), Area(d.name, d.state, [b])], d, x);
    assert [b] + [x] == [b, x];
  }

  // ---------------------------------------------------------------------------
  // GET /venues/<id> and GET /artists/<id>: past and upcoming shows
  // ---------------------------------------------------------------------------

  predicate HasArtist(artists: seq<Artist>, id: int) {
    exists a :: a in artists && a.id == id
  }

  function PastOf(belongs: Show -> bool, now: int): Show -> bool {
    (s: Show) => belongs(s) && s.startTime < now
  }

  function UpcomingOf(belongs: Show -> bool, now: int): Show -> bool {
    (s: Show) => belongs(s) && s.startTime >= now
  }

  datatype ShowsSplit = ShowsSplit(past: seq<Show>, upcoming: seq<Show>, pastCount: nat, upcomingCount: nat)

  /** The two queries of a detail page: the page's shows that started before `now`
      and those starting at or after it. Together they are exactly the page's shows. */
  function SplitShows(shows: seq<Show>, belongs: Show -> bool, now: int): (r: ShowsSplit)
    ensures r.pastCount == |r.past| && r.upcomingCount == |r.upcoming|
    ensures forall s :: s in r.past <==> s in shows && belongs(s) && s.startTime < now
    ensures forall s :: s in r.upcoming <==> s in shows && belongs(s) && s.startTime >= now
    ensures multiset(r.past) + multiset(r.upcoming) == multiset(Filter(shows, belongs))
    ensures r.pastCount + r.upcomingCount == |Filter(shows, belongs)|
  {
    var past := Filter(shows, PastOf(belongs, now));
    var upcoming := Filter(shows, UpcomingOf(belongs, now));
    FilterPartition(shows, belongs, PastOf(belongs, now), UpcomingOf(belongs, now));
    ShowsSplit(past, upcoming, |past|, |upcoming|)
  }

  /** `Show.query.join(Artist).filter(Show.venue_id == venueId)`. */
  function AtVenue(artists: seq<Artist>, venueId: int): Show -> bool {
    (s: Show) => s.venueId == venueId && HasArtist(artists, s.artistId)
  }

  /** `Show.query.join(Artist).filter(Show.artist_id == artistId)`. */
  function ByArtist(artists: seq<Artist>, artistId: int): Show -> bool {
    (s: Show) => s.artistId == artistId && HasArtist(artists, s.artistId)
  }

  datatype DetailPage = DetailPage(id: int, name: string, city: string, state: string, phone: string, shows: ShowsSplit)

  function FindVenue(venues: seq<Venue>, id: int): (r: Option<Venue>)
    ensures r.Some? ==> r.value in venues && r.value.id == id
    ensures r.None? ==> forall v :: v in venues ==> v.id != id
  {
    if |venues| == 0 then None
    else if venues[0].id == id then Some(venues[0])
    else FindVenue(venues[1..], id)
  }

  function FindArtist(artists: seq<Artist>, id: int): (r: Option<Artist>)
    ensures r.Some? ==> r.value in artists && r.value.id == id
    ensures r.None? ==> forall a :: a in artists ==> a.id != id
  {
    if |artists| == 0 then None
    else if artists[0].id == id then Some(artists[0])
    else FindArtist(artists[1..], id)
  }

  /** GET /venues/<venueId>: 500 for an unknown venue (the handler reads `.genres` of
      None); otherwise the venue with its shows split around `now`. */
  function ShowVenue(db: Db, venueId: int, now: int): (r: Response<DetailPage>)
    ensures r.ServerError? <==>
      FindVenue(db.venues, venueId).None? || FindCity(db.cities, FindVenue(db.venues, venueId).value.cityId).None?
    ensures r.Rendered? ==> r.page.id == venueId
    ensures r.Rendered? ==> forall s :: s in r.page.shows.past <==>
      s in db.shows && s.venueId == venueId && HasArtist(db.artists, s.artistId) && s.startTime < now
    ensures r.Rendered? ==> forall s :: s in r.page.shows.upcoming <==>
      s in db.shows && s.venueId == venueId && HasArtist(db.artists, s.artistId) && s.startTime >= now
    ensures r.Rendered? ==>
      r.page.shows.pastCount == |r.page.shows.past| && r.page.shows.upcomingCount == |r.page.shows.upcoming|
    ensures r.Rendered? ==> multiset(r.page.shows.past) + multiset(r.page.shows.upcoming) <= multiset(db.shows)
    ensures r.Rendered? ==> forall s :: s in db.shows && s.venueId == venueId && HasArtist(db.artists, s.artistId) ==>
      s in r.page.shows.past || s in r.page.shows.upcoming
  {
    match FindVenue(db.venues, venueId)
    case None => ServerError
    case Some(v) =>
      match FindCity(db.cities, v.cityId)
      case None => ServerError
      case Some(c) =>
        Rendered(DetailPage(v.id, v.name, c.name, c.state, v.phone, SplitShows(db.shows, AtVenue(db.artists, venueId), now)))
  }

  /** GET /artists/<artistId>: as for a venue, over the artist's shows. */
  function ShowArtist(db: Db, artistId: int, now: int): (r: Response<DetailPage>)
    ensures r.ServerError? <==>
      FindArtist(db.artists, artistId).None? || FindCity(db.cities, FindArtist(db.artists, artistId).value.cityId).None?
    ensures r.Rendered? ==> r.page.id == artistId
    ensures r.Rendered? ==> forall s :: s in r.page.shows.past <==>
      s in db.shows && s.artistId == artistId && s.startTime < now
    ensures r.Rendered? ==> forall s :: s in r.page.shows.upcoming <==>
      s in db.shows && s.artistId == artistId && s.startTime >= now
    ensures r.Rendered? ==>
      r.page.shows.pastCount == |r.page.shows.past| && r.page.shows.upcomingCount == |r.page.shows.upcoming|
    ensures r.Rendered? ==> multiset(r.page.shows.past) + multiset(r.page.shows.upcoming) <= multiset(db.shows)
    ensures r.Rendered? ==> forall s :: s in db.shows && s.artistId == artistId ==>
      s in r.page.shows.past || s in r.page.shows.upcoming
  {
    match FindArtist(db.artists, artistId)
    case None => ServerError
    case Some(a) =>
      match FindCity(db.cities, a.cityId)
      case None => ServerError
      case Some(c) =>
        assert HasArtist(db.artists, artistId) by {
          assert a in db.artists && a.id == artistId;
        }
        Rendered(DetailPage(a.id, a.name, c.name, c.state, a.phone, SplitShows(db.shows, ByArtist(db.artists, artistId), now)))
  }

  // ---------------------------------------------------------------------------
  // POST /venues/search and POST /artists/search
  // ---------------------------------------------------------------------------

  datatype SearchItem = SearchItem(id: int, name: string, numUpcomingShows: nat)

  datatype SearchResult = SearchResult(count: nat, data: seq<SearchItem>)

  /** `name.contains(term)` compiles to `name LIKE '%' || term || '%'`. */
  predicate NameMatches(name: string, term: string) {
    Like(name, "%" + term + "%")
  }

  predicate HasShowFrom(shows: seq<Show>, venueId: int, now: int) {
    exists s :: s in shows && s.venueId == venueId && s.startTime >= now
  }

  /** The search's filter: the name is LIKE '%term%' and the joined shows include
      one starting at or after `now`. */
  predicate VenueHit(shows: seq<Show>, term: string, now: int, v: Venue) {
    NameMatches(v.name, term) && HasShowFrom(shows, v.id, now)
  }

  /** The venue query joined with its shows; the join yields one row per venue. */
  function VenueSearchHit(shows: seq<Show>, term: string, now: int): Venue -> bool {
    (v: Venue) => VenueHit(shows, term, now, v)
  }

  /** The venue's entry; `num_upcoming_shows` is `len(v.shows)`, all of its shows. */
  function VenueSearchItem(shows: seq<Show>, v: Venue): SearchItem {
    SearchItem(v.id, v.name, |Filter(shows, OfVenue(v.id))|)
  }

  /** `x` is the search entry of a venue the search matches. */
  predicate VenueFound(db: Db, term: string, now: int, x: SearchItem) {
    exists v :: v in db.venues && VenueHit(db.shows, term, now, v) && x == VenueSearchItem(db.shows, v)
  }

  predicate UniqueVenueIds(vs: seq<Venue>) {
    forall i, j :: 0 <= i < j < |vs| ==> vs[i].id != vs[j].id
  }

  predicate UniqueArtistIds(xs: seq<Artist>) {
    forall i, j :: 0 <= i < j < |xs| ==> xs[i].id != xs[j].id
  }

  /** No entity is listed twice in a search reply. */
  predicate UniqueItemIds(items: seq<SearchItem>) {
    forall i, j :: 0 <= i < j < |items| ==> items[i].id != items[j].id
  }

  function VenueKey(v: Venue): int {
    v.id
  }

  function ArtistKey(a: Artist): int {
    a.id
  }

  function OfVenue(venueId: int): Show -> bool {
    (s: Show) => s.venueId == venueId
  }

  function MapVenues(shows: seq<Show>, vs: seq<Venue>): (r: seq<SearchItem>)
    ensures |r| == |vs|
    ensures forall i :: 0 <= i < |vs| ==> r[i] == VenueSearchItem(shows, vs[i])
    ensures forall x :: x in vs ==> VenueSearchItem(shows, x) in r
    ensures forall i :: 0 <= i < |r| ==> vs[i] in vs
  {
    seq(|vs|, i requires 0 <= i < |vs| => VenueSearchItem(shows, vs[i]))
  }

  /** POST /venues/search. */
  function SearchVenues(db: Db, term: string, now: int): (r: SearchResult)
    ensures r.count == |r.data|
    ensures r.count <= |db.venues|
    ensures forall v :: v in db.venues && VenueHit(db.shows, term, now, v) ==>
      VenueSearchItem(db.shows, v) in r.data
    ensures forall i :: 0 <= i < |r.data| ==> VenueFound(db, term, now, r.data[i])
    ensures UniqueVenueIds(db.venues) ==> UniqueItemIds(r.data)
  {
    var hits := Filter(db.venues, VenueSearchHit(db.shows, term, now));
    var data := MapVenues(db.shows, hits);
    assert forall v :: v in db.venues && VenueHit(db.shows, term, now, v) ==> v in hits;
    VenueHitsUnique(db, term, now);
    VenueHitsListed(db, term, now, data);
    SearchResult(|data|, data)
  }

  /** Every entry of the venue search is the entry of a matching venue. */
  lemma VenueHitsListed(db: Db, term: string, now: int, data: seq<SearchItem>)
    requires data == MapVenues(db.shows, Filter(db.venues, VenueSearchHit(db.shows, term, now)))
    ensures forall i :: 0 <= i < |data| ==> VenueFound(db, term, now, data[i])
  {
    var hits := Filter(db.venues, VenueSearchHit(db.shows, term, now));
    forall i | 0 <= i < |data|
      ensures VenueFound(db, term, now, data[i])
    {
      var w := hits[i];
      assert w in db.venues && VenueHit(db.shows, term, now, w) && data[i] == VenueSearchItem(db.shows, w);
    }
  }

  lemma VenueHitsUnique(db: Db, term: string, now: int)
    ensures UniqueVenueIds(db.venues) ==>
      UniqueItemIds(MapVenues(db.shows, Filter(db.venues, VenueSearchHit(db.shows, term, now))))
  {
    if UniqueVenueIds(db.venues) {
      var hits := Filter(db.venues, VenueSearchHit(db.shows, term, now));
      var data := MapVenues(db.shows, hits);
      FilterKeepsKeysDistinct(db.venues, VenueSearchHit(db.shows, term, now), VenueKey);
      assert forall i :: 0 <= i < |data| ==> data[i].id == VenueKey(hits[i]);
    }
  }

  /** For a term without LIKE wildcards, a venue is found exactly when its name
      contains the term (case as written) and it has a show starting at or after `now`. */
  lemma VenueSearchIsSubstring(db: Db, term: string, now: int, v: Venue)
    requires NoWildcard(term)
    requires v in db.venues
    ensures VenueSearchItem(db.shows, v) in SearchVenues(db, term, now).data
      <==> IsSubstring(term, v.name) && HasShowFrom(db.shows, v.id, now)
  {
    SurroundedLikeIsSubstring(v.name, term);
    var r := SearchVenues(db, term, now);
    if VenueSearchItem(db.shows, v) in r.data {
      var i :| 0 <= i < |r.data| && r.data[i] == VenueSearchItem(db.shows, v);
      var w :| w in db.venues && VenueHit(db.shows, term, now, w) && r.data[i] == VenueSearchItem(db.shows, w);
      assert w.name == v.name && w.id == v.id;
    }
  }

  /** `num_upcoming_shows` in a venue search counts the venue's past shows too. */
  lemma SearchCountsPastShows(v: Venue, now: int)
    ensures
      var shows := [Show(1, v.id, 7, now - 1), Show(2, v.id, 7, now + 1)];
      VenueSearchItem(shows, v).numUpcomingShows == 2
  {
    var shows := [Show(1, v.id, 7, now - 1), Show(2, v.id, 7, now + 1)];
    FilterAll(shows, OfVenue(v.id));
  }

  predicate ArtistHasShowFrom(shows: seq<Show>, artistId: int, now: int) {
    exists s :: s in shows && s.artistId == artistId && s.startTime >= now
  }

  /** The search's filter: the name is LIKE '%term%' and the joined shows include
      one starting at or after `now`. */
  predicate ArtistHit(shows: seq<Show>, term: string, now: int, a: Artist) {
    NameMatches(a.name, term) && ArtistHasShowFrom(shows, a.id, now)
  }

  function ArtistSearchHit(shows: seq<Show>, term: string, now: int): Artist -> bool {
    (a: Artist) => ArtistHit(shows, term, now, a)
  }

  function ArtistSearchItem(shows: seq<Show>, a: Artist): SearchItem {
    SearchItem(a.id, a.name, |Filter(shows, OfArtist(a.id))|)
  }

  /** `x` is the search entry of an artist the search matches. */
  predicate ArtistFound(db: Db, term: string, now: int, x: SearchItem) {
    exists a :: a in db.artists && ArtistHit(db.shows, term, now, a) && x == ArtistSearchItem(db.shows, a)
  }

  function OfArtist(artistId: int): Show -> bool {
    (s: Show) => s.artistId == artistId
  }

  function MapArtists(shows: seq<Show>, xs: seq<Artist>): (r: seq<SearchItem>)
    ensures |r| == |xs|
    ensures forall i :: 0 <= i < |xs| ==> r[i] == ArtistSearchItem(shows, xs[i])
    ensures forall x :: x in xs ==> ArtistSearchItem(shows, x) in r
    ensures forall i :: 0 <= i < |r| ==> xs[i] in xs
  {
    seq(|xs|, i requires 0 <= i < |xs| => ArtistSearchItem(shows, xs[i]))
  }

  /** POST /artists/search. */
  function SearchArtists(db: Db, term: string, now: int): (r: SearchResult)
    ensures r.count == |r.data|
    ensures r.count <= |db.artists|
    ensures forall a :: a in db.artists && ArtistHit(db.shows, term, now, a) ==>
      ArtistSearchItem(db.shows, a) in r.data
    ensures forall i :: 0 <= i < |r.data| ==> ArtistFound(db, term, now, r.data[i])
    ensures UniqueArtistIds(db.artists) ==> UniqueItemIds(r.data)
  {
    var hits := Filter(db.artists, ArtistSearchHit(db.shows, term, now));
    var data := MapArtists(db.shows, hits);
    assert forall a :: a in db.artists && ArtistHit(db.shows, term, now, a) ==> a in hits;
    ArtistHitsUnique(db, term, now);
    ArtistHitsListed(db, term, now, data);
    SearchResult(|data|, data)
  }

  /** The search is case-sensitive: "band" does not find "The Wild Sax Band", which
      has no lower-case 'b', while "Band" does. */
  lemma BandNeedsItsCapital()
    ensures !NameMatches("The Wild Sax Band", "band")
    ensures NameMatches("The Wild Sax Band", "Band")
  {
    var name := "The Wild Sax Band";
    SurroundedLikeIsSubstring(name, "band");
    SurroundedLikeIsSubstring(name, "Band");
    assert forall k :: 0 <= k < |name| ==> name[k] != 'b';
    FirstCharAbsent("band", name);
    assert OccursAt("Band", name, 13);
  }

  /** Every entry of the artist search is the entry of a matching artist. */
  lemma ArtistHitsListed(db: Db, term: string, now: int, data: seq<SearchItem>)
    requires data == MapArtists(db.shows, Filter(db.artists, ArtistSearchHit(db.shows, term, now)))
    ensures forall i :: 0 <= i < |data| ==> ArtistFound(db, term, now, data[i])
  {
    var hits := Filter(db.artists, ArtistSearchHit(db.shows, term, now));
    forall i | 0 <= i < |data|
      ensures ArtistFound(db, term, now, data[i])
    {
      var a := hits[i];
      assert a in hits;
      assert a in db.artists && ArtistHit(db.shows, term, now, a) && data[i] == ArtistSearchItem(db.shows, a);
    }
  }

  lemma ArtistHitsUnique(db: Db, term: string, now: int)
    ensures UniqueArtistIds(db.artists) ==>
      UniqueItemIds(MapArtists(db.shows, Filter(db.artists, ArtistSearchHit(db.shows, term, now))))
  {
    if UniqueArtistIds(db.artists) {
      var hits := Filter(db.artists, ArtistSearchHit(db.shows, term, now));
      var data := MapArtists(db.shows, hits);
      FilterKeepsKeysDistinct(db.artists, ArtistSearchHit(db.shows, term, now), ArtistKey);
      assert forall i :: 0 <= i < |data| ==> data[i].id == ArtistKey(hits[i]);
    }
  }

  /** The artist search, for a wildcard-free term: found exactly when the name
      contains the term and the artist has a show starting at or after `now`. */
  lemma ArtistSearchIsSubstring(db: Db, term: string, now: int, a: Artist)
    requires NoWildcard(term)
    requires a in db.artists
    ensures ArtistSearchItem(db.shows, a) in SearchArtists(db, term, now).data
      <==> IsSubstring(term, a.name) && ArtistHasShowFrom(db.shows, a.id, now)
  {
    SurroundedLikeIsSubstring(a.name, term);
    var r := SearchArtists(db, term, now);
    if ArtistSearchItem(db.shows, a) in r.data {
      var i :| 0 <= i < |r.data| && r.data[i] == ArtistSearchItem(db.shows, a);
      var w :| w in db.artists && ArtistHit(db.shows, term, now, w) && r.data[i] == ArtistSearchItem(db.shows, w);
      assert w.name == a.name && w.id == a.id;
    }
  }

  // ---------------------------------------------------------------------------
  // POST /venues/create and POST /artists/create
  // ---------------------------------------------------------------------------

  /** `data['city'].strip().lower()`. */
  function NormaliseCity(raw: string): (r: string)
    ensures Stripped(r)
    ensures |r| <= |raw|
    ensures forall i :: 0 <= i < |r| ==> !('A' <= r[i] <= 'Z')
  {
    var m := Strip(raw);
    LowerKeepsStripped(m);
    Lower(m)
  }

  /** A name padded with whitespace normalises to the name lower-cased: the padding
      goes and nothing inside the name changes but the case of its letters. */
  lemma NormaliseSurrounded(w1: string, n: string, w2: string)
    requires AllSpace(w1) && AllSpace(w2) && Stripped(n)
    ensures NormaliseCity(w1 + n + w2) == Lower(n)
  {
    StripUnique(w1, n, w2);
  }

  /** A name already stripped and in lower case is stored as typed, so two such
      names that differ stay different cities. */
  lemma NormaliseKeepsCanonical(n: string)
    requires Stripped(n)
    requires forall i :: 0 <= i < |n| ==> !('A' <= n[i] <= 'Z')
    ensures NormaliseCity(n) == n
  {
    var none: string := [];
    assert none + n + none == n;
    NormaliseSurrounded(none, n, none);
    LowerOfLowerCase(n);
  }

  lemma NormaliseIdempotent(raw: string)
    ensures NormaliseCity(NormaliseCity(raw)) == NormaliseCity(raw)
  {
    var m := Strip(raw);
    StripLowerCommute(m);
    StripIdempotent(m);
    LowerIdempotent(m);
  }

  /** Two city names that differ only in letter case and in surrounding whitespace
      normalise to the same name. */
  lemma NormaliseIgnoresCaseAndSpace(w1: string, x: string, w2: string, w3: string, y: string, w4: string)
    requires AllSpace(w1) && AllSpace(w2) && AllSpace(w3) && AllSpace(w4)
    requires Lower(x) == Lower(y)
    ensures NormaliseCity(w1 + x + w2) == NormaliseCity(w3 + y + w4)
  {
    StripIgnoresSurrounding(w1, x, w2);
    StripIgnoresSurrounding(w3, y, w4);
    StripLowerCommute(x);
    StripLowerCommute(y);
  }

  /** `City.query.filter_by(name=name).first()`. */
  function FindCityByName(cities: seq<City>, name: string): (r: Option<City>)
    ensures r.Some? ==> r.value in cities && r.value.name == name
    ensures r.None? ==> forall c :: c in cities ==> c.name != name
  {
    var hits := Filter(cities, NamedAs(name));
    if |hits| == 0 then None else Some(hits[0])
  }

  function NamedAs(name: string): City -> bool {
    (c: City) => c.name == name
  }

  /** The submitted form; None for a field that is not in the form. */
  datatype VenueForm = VenueForm(
    name: Option<string>, city: Option<string>, state: Option<string>,
    facebookLink: Option<string>, address: Option<string>, phone: Option<string>)

  datatype ArtistForm = ArtistForm(
    name: Option<string>, city: Option<string>, state: Option<string>,
    facebookLink: Option<string>, phone: Option<string>)

  /** How a create request ends. Listed: committed and the success message flashed.
      NotListed: rolled back and the error message flashed. BadRequest: the `except`
      clause itself read a missing form key; Werkzeug's key error is an HTTP 400 (a
      500 when the app runs in debug mode, which traps it). Crashed: the `except`
      clause raised an AttributeError, a 500. */
  datatype Flash = Listed | NotListed | BadRequest | Crashed

  datatype Created = Created(flash: Flash, db: Db)

  /** The city row a creation uses: the existing row with the normalised name, or a
      new row with id `newCityId` when there is none and the form has a state. */
  function ResolveCity(cities: seq<City>, rawCity: string, state: Option<string>, newCityId: int): (r: Option<(City, seq<City>)>)
    ensures r.None? <==> FindCityByName(cities, NormaliseCity(rawCity)).None? && state.None?
    ensures r.Some? ==> r.value.0.name == NormaliseCity(rawCity) && r.value.0 in r.value.1
    ensures r.Some? && r.value.1 == cities ==> r.value.0 in cities
    ensures r.Some? && r.value.1 != cities ==>
      && FindCityByName(cities, NormaliseCity(rawCity)).None? && state.Some?
      && r.value.0 == City(newCityId, NormaliseCity(rawCity), state.value)
      && r.value.1 == cities + [r.value.0]
    ensures r.Some? ==> FindCityByName(r.value.1, NormaliseCity(rawCity)) == Some(r.value.0)
  {
    var n := NormaliseCity(rawCity);
    match FindCityByName(cities, n)
    case Some(c) =>
      Some((c, cities))
    case None =>
      if state.None? then None
      else
        var c := City(newCityId, n, state.value);
        FindAfterAppend(cities, c);
        Some((c, cities + [c]))
  }

  lemma FindAfterAppend(cities: seq<City>, c: City)
    requires forall x :: x in cities ==> x.name != c.name
    ensures FindCityByName(cities + [c], c.name) == Some(c)
  {
    var p := NamedAs(c.name);
    FilterAppend(cities, [c], p);
    assert [c][1..] == [];
    assert Filter([c], p) == [c];
  }

  /** The create request added exactly one city row: the normalised name was unknown
      and the form carried a state. */
  predicate NewCity(db: Db, rawCity: string, state: Option<string>, newCityId: int, cities: seq<City>) {
    && FindCityByName(db.cities, NormaliseCity(rawCity)).None? && state.Some?
    && cities == db.cities + [City(newCityId, NormaliseCity(rawCity), state.value)]
  }

  /** POST /venues/create. `newCityId` and `newVenueId` are the keys the database
      hands out for rows inserted by this request. */
  function CreateVenue(db: Db, form: VenueForm, newCityId: int, newVenueId: int): (r: Created)
    ensures r.flash == BadRequest <==> form.name.None?
    ensures r.flash != Crashed
    ensures r.flash == Listed <==>
      && form.city.Some? && form.name.Some? && form.facebookLink.Some? && form.address.Some? && form.phone.Some?
      && (form.state.Some? || FindCityByName(db.cities, NormaliseCity(form.city.value)).Some?)
    ensures r.flash != Listed ==> r.db == db
    ensures r.flash == Listed ==>
      && r.db.artists == db.artists && r.db.shows == db.shows
      && (r.db.cities == db.cities || NewCity(db, form.city.value, form.state, newCityId, r.db.cities))
      && |r.db.venues| == |db.venues| + 1 && r.db.venues[..|db.venues|] == db.venues
      && var v := r.db.venues[|db.venues|];
         v == Venue(newVenueId, form.name.value, v.cityId, form.address.value, form.phone.value, form.facebookLink.value)
         && FindCityByName(r.db.cities, NormaliseCity(form.city.value)).Some?
         && v.cityId == FindCityByName(r.db.cities, NormaliseCity(form.city.value)).value.id
  {
    var failed := Created(if form.name.None? then BadRequest else NotListed, db);
    if form.city.None? then failed
    else match ResolveCity(db.cities, form.city.value, form.state, newCityId)
      case None => failed
      case Some((c, cities)) =>
        if form.name.None? || form.facebookLink.None? || form.address.None? || form.phone.None? then failed
        else
          var v := Venue(newVenueId, form.name.value, c.id, form.address.value, form.phone.value, form.facebookLink.value);
          assert (db.venues + [v])[..|db.venues|] == db.venues;
          Created(Listed, db.(cities := cities, venues := db.venues + [v]))
  }

  /** POST /artists/create. Its `except` clause reads `data.name`, an attribute the
      form does not have, so every failure ends in that AttributeError, a 500, instead of a flash. */
  function CreateArtist(db: Db, form: ArtistForm, newCityId: int, newArtistId: int): (r: Created)
    ensures r.flash != NotListed && r.flash != BadRequest
    ensures r.flash == Listed <==>
      && form.city.Some? && form.name.Some? && form.facebookLink.Some? && form.phone.Some?
      && (form.state.Some? || FindCityByName(db.cities, NormaliseCity(form.city.value)).Some?)
    ensures r.flash != Listed ==> r.db == db
    ensures r.flash == Listed ==>
      && r.db.venues == db.venues && r.db.shows == db.shows
      && (r.db.cities == db.cities || NewCity(db, form.city.value, form.state, newCityId, r.db.cities))
      && |r.db.artists| == |db.artists| + 1 && r.db.artists[..|db.artists|] == db.artists
      && var a := r.db.artists[|db.artists|];
         a == Artist(newArtistId, form.name.value, a.cityId, form.phone.value, form.facebookLink.value)
         && FindCityByName(r.db.cities, NormaliseCity(form.city.value)).Some?
         && a.cityId == FindCityByName(r.db.cities, NormaliseCity(form.city.value)).value.id
  {
    var failed := Created(Crashed, db);
    if form.city.None? then failed
    else match ResolveCity(db.cities, form.city.value, form.state, newCityId)
      case None => failed
      case Some((c, cities)) =>
        if form.name.None? || form.facebookLink.None? || form.phone.None? then failed
        else
          var a := Artist(newArtistId, form.name.value, c.id, form.phone.value, form.facebookLink.value);
          assert (db.artists + [a])[..|db.artists|] == db.artists;
          Created(Listed, db.(cities := cities, artists := db.artists + [a]))
  }

  /** Creating a second venue whose city name normalises to the first one's adds no
      city row: the second venue is filed under the city the first one created. */
  lemma SecondVenueReusesCity(db: Db, f1: VenueForm, f2: VenueForm, c1: int, v1: int, c2: int, v2: int)
    requires CreateVenue(db, f1, c1, v1).flash == Listed
    requires f2.city.Some? && NormaliseCity(f2.city.value) == NormaliseCity(f1.city.value)
    ensures CreateVenue(CreateVenue(db, f1, c1, v1).db, f2, c2, v2).db.cities == CreateVenue(db, f1, c1, v1).db.cities
  {
  }

  predicate UniqueNames(cities: seq<City>) {
    forall i, j :: 0 <= i < j < |cities| ==> cities[i].name != cities[j].name
  }

  lemma AppendKeepsUnique(cities: seq<City>, c: City)
    requires UniqueNames(cities)
    requires FindCityByName(cities, c.name).None?
    ensures UniqueNames(cities + [c])
  {
    forall i, j | 0 <= i < j < |cities + [c]| ensures (cities + [c])[i].name != (cities + [c])[j].name {
      assert (cities + [c])[i] == cities[i];
      if j == |cities| {
        assert cities[i] in cities;
      }
    }
  }

  /** City names stay unique under venue creation. */
  lemma CreateKeepsCityNamesUnique(db: Db, form: VenueForm, newCityId: int, newVenueId: int)
    requires UniqueNames(db.cities)
    ensures UniqueNames(CreateVenue(db, form, newCityId, newVenueId).db.cities)
  {
    var r := CreateVenue(db, form, newCityId, newVenueId);
    if r.db.cities != db.cities {
      var n := NormaliseCity(form.city.value);
      AppendKeepsUnique(db.cities, City(newCityId, n, form.state.value));
    }
  }
}

=== FILE: seqs.dfy ===
/** Generic sequence helpers: the in-memory counterpart of an ORM `filter(...).all()`
    (which keeps table order) and of `query.count()`. */
module Seqs {

  /** The elements of `s` that satisfy `p`, in their original order. */
  function Filter<T(==,!new)>(s: seq<T>, p: T -> bool): (r: seq<T>)
    ensures |r| <= |s|
    ensures forall x :: x in r <==> x in s && p(x)
    ensures forall i :: 0 <= i < |r| ==> p(r[i])
    ensures multiset(r) <= multiset(s)
  {
    if |s| == 0 then []
    else
      assert s == [s[0]] + s[1..];
      if p(s[0]) then [s[0]] + Filter(s[1..], p)
      else Filter(s[1..], p)
  }

  /** A key that tells the elements of `s` apart still tells apart those that survive
      a filter: a filter never repeats an element. */
  lemma {:induction false} FilterKeepsKeysDistinct<T(!new), K>(s: seq<T>, p: T -> bool, key: T -> K)
    requires forall i, j :: 0 <= i < j < |s| ==> key(s[i]) != key(s[j])
    ensures forall i, j :: 0 <= i < j < |Filter(s, p)| ==> key(Filter(s, p)[i]) != key(Filter(s, p)[j])
  {
    if |s| > 0 {
      var rest := s[1..];
      FilterKeepsKeysDistinct(rest, p, key);
      var t := Filter(rest, p);
      forall x | x in t
        ensures key(x) != key(s[0])
      {
        var k :| 0 <= k < |rest| && rest[k] == x;
        assert s[k + 1] == x;
      }
      if p(s[0]) {
        var r := [s[0]] + t;
        assert Filter(s, p) == r;
        forall i, j | 0 <= i < j < |r|
          ensures key(r[i]) != key(r[j])
        {
          assert r[j] == t[j - 1];
          assert r[j] in t;
          if i > 0 {
            assert r[i] == t[i - 1];
          }
        }
      }
    }
  }

  /** Filtering a concatenation filters each part. */
  lemma {:induction false} FilterAppend<T(!new)>(a: seq<T>, b: seq<T>, p: T -> bool)
    ensures Filter(a + b, p) == Filter(a, p) + Filter(b, p)
  {
    if |a| == 0 {
      assert a + b == b;
    } else {
      assert (a + b)[1..] == a[1..] + b;
      FilterAppend(a[1..], b, p);
    }
  }

  /** Filtering by two disjoint predicates that together cover `p` splits the
      survivors of `p`, losing and inventing nothing. */
  lemma {:induction false} FilterPartition<T(!new)>(s: seq<T>, p: T -> bool, a: T -> bool, b: T -> bool)
    requires forall x :: p(x) <==> a(x) || b(x)
    requires forall x :: !(a(x) && b(x))
    ensures multiset(Filter(s, a)) + multiset(Filter(s, b)) == multiset(Filter(s, p))
    ensures |Filter(s, a)| + |Filter(s, b)| == |Filter(s, p)|
  {
    if |s| > 0 {
      FilterPartition(s[1..], p, a, b);
    }
  }

  /** A filter that keeps everything is the identity. */
  lemma {:induction false} FilterAll<T(!new)>(s: seq<T>, p: T -> bool)
    requires forall i :: 0 <= i < |s| ==> p(s[i])
    ensures Filter(s, p) == s
  {
    if |s| > 0 {
      FilterAll(s[1..], p);
    }
  }
}

=== FILE: text.dfy ===
/** String primitives the applications lean on: Python's `str.strip()` and
    `str.lower()`, SQL `LIKE` pattern matching, and Python's `str(int)`.
    Case mapping covers ASCII letters only. */
module Text {

  // ---------------------------------------------------------------------------
  // Whitespace and strip()
  // ---------------------------------------------------------------------------

  /** The characters Python's `str.isspace()` accepts. */
  predicate IsSpace(c: char) {
    || ('\t' <= c <= '\r')
    || ('\U{1C}' <= c <= ' ')
    || c == '\U{85}' || c == '\U{A0}' || c == '\U{1680}'
    || ('\U{2000}' <= c <= '\U{200A}')
    || c == '\U{2028}' || c == '\U{2029}' || c == '\U{202F}' || c == '\U{205F}' || c == '\U{3000}'
  }

  predicate AllSpace(w: string) {
    forall i :: 0 <= i < |w| ==> IsSpace(w[i])
  }

  /** Neither end of `m` is whitespace. */
  predicate Stripped(m: string) {
    m == [] || (!IsSpace(m[0]) && !IsSpace(m[|m| - 1]))
  }

  /** `s` without its leading whitespace. */
  function TrimLeft(s: string): (r: string)
    ensures |r| <= |s| && r == s[|s| - |r|..]
    ensures AllSpace(s[..|s| - |r|])
    ensures r == [] || !IsSpace(r[0])
  {
    if |s| > 0 && IsSpace(s[0]) then
      var r := TrimLeft(s[1..]);
      assert s[..|s| - |r|] == [s[0]] + s[1..][..|s| - 1 - |r|];
      AllSpaceAppend([s[0]], s[1..][..|s| - 1 - |r|]);
      assert s[|s| - |r|..] == s[1..][|s| - 1 - |r|..];
      r
    else s
  }

  /** `s` without its trailing whitespace. */
  function TrimRight(s: string): (r: string)
    ensures |r| <= |s| && r == s[..|r|]
    ensures AllSpace(s[|r|..])
    ensures r == [] || !IsSpace(r[|r| - 1])
  {
    if |s| > 0 && IsSpace(s[|s| - 1]) then
      var r := TrimRight(s[..|s| - 1]);
      assert s[|r|..] == s[..|s| - 1][|r|..] + [s[|s| - 1]];
      AllSpaceAppend(s[..|s| - 1][|r|..], [s[|s| - 1]]);
      assert s[..|r|] == s[..|s| - 1][..|r|];
      r
    else s
  }

  /** Python's `s.strip()`. */
  function Strip(s: string): (r: string)
    ensures Stripped(r)
    ensures |r| <= |s|
  {
    var t := TrimLeft(s);
    var r := TrimRight(t);
    assert r == [] || r[0] == t[0];
    r
  }

  lemma {:induction false} TrimLeftSkips(a: string, t: string)
    requires AllSpace(a)
    requires t == [] || !IsSpace(t[0])
    ensures TrimLeft(a + t) == t
  {
    if |a| == 0 {
      assert a + t == t;
    } else {
      assert (a + t)[1..] == a[1..] + t;
      TrimLeftSkips(a[1..], t);
    }
  }

  lemma {:induction false} TrimRightSkips(t: string, b: string)
    requires AllSpace(b)
    requires t == [] || !IsSpace(t[|t| - 1])
    ensures TrimRight(t + b) == t
  {
    if |b| == 0 {
      assert t + b == t;
    } else {
      assert (t + b)[..|t + b| - 1] == t + b[..|b| - 1];
      TrimRightSkips(t, b[..|b| - 1]);
    }
  }

  /** Whatever `strip()` keeps, it is the unique core of `s` between two runs of
      whitespace: any split of `s` into whitespace, a stripped middle and
      whitespace yields that middle. */
  lemma StripUnique(a: string, m: string, b: string)
    requires AllSpace(a) && AllSpace(b) && Stripped(m)
    ensures Strip(a + m + b) == m
  {
    if m == [] {
      assert a + m + b == (a + b) + [];
      TrimLeftSkips(a + b, []);
      assert TrimLeft(a + m + b) == [];
    } else {
      assert a + m + b == a + (m + b);
      TrimLeftSkips(a, m + b);
      TrimRightSkips(m, b);
    }
  }

  /** `strip()` only removes whitespace, and only at the two ends. */
  lemma StripDecompose(s: string) returns (a: string, b: string)
    ensures AllSpace(a) && AllSpace(b)
    ensures s == a + Strip(s) + b
  {
    var t := TrimLeft(s);
    a := s[..|s| - |t|];
    var r := TrimRight(t);
    b := t[|r|..];
    JoinThree(s, a, t, r, b);
  }

  lemma JoinThree(s: string, a: string, t: string, r: string, b: string)
    requires |a| <= |s| && a == s[..|a|] && t == s[|a|..]
    requires |r| <= |t| && r == t[..|r|] && b == t[|r|..]
    ensures s == a + r + b
  {
    assert s == a + t;
    assert t == r + b;
    assert a + t == a + r + b;
  }

  /** Surrounding whitespace never changes what `strip()` returns. */
  lemma StripIgnoresSurrounding(w1: string, x: string, w2: string)
    requires AllSpace(w1) && AllSpace(w2)
    ensures Strip(w1 + x + w2) == Strip(x)
  {
    var a, b := StripDecompose(x);
    var m := Strip(x);
    AllSpaceAppend(w1, a);
    AllSpaceAppend(b, w2);
    Regroup(w1, a, m, b, w2);
    StripUnique(w1 + a, m, b + w2);
  }

  lemma AllSpaceAppend(u: string, v: string)
    requires AllSpace(u) && AllSpace(v)
    ensures AllSpace(u + v)
  {
    forall i | 0 <= i < |u + v| ensures IsSpace((u + v)[i]) {
      if i < |u| { assert (u + v)[i] == u[i]; } else { assert (u + v)[i] == v[i - |u|]; }
    }
  }

  lemma Regroup(w1: string, a: string, m: string, b: string, w2: string)
    ensures w1 + (a + m + b) + w2 == (w1 + a) + m + (b + w2)
  {
  }

  lemma StripIdempotent(s: string)
    ensures Strip(Strip(s)) == Strip(s)
  {
    assert Strip(s) == [] + Strip(s) + [];
    StripUnique([], Strip(s), []);
  }

  // ---------------------------------------------------------------------------
  // lower()
  // ---------------------------------------------------------------------------

  function LowerChar(c: char): char {
    if 'A' <= c <= 'Z' then (c as int + 32) as char else c
  }

  /** `str.lower()` / SQL `lower()` on ASCII letters; every other character is kept. */
  function Lower(s: string): (r: string)
    ensures |r| == |s|
    ensures forall i :: 0 <= i < |s| ==> !('A' <= r[i] <= 'Z')
    ensures forall i :: 0 <= i < |s| && r[i] != s[i] ==> 'A' <= s[i] <= 'Z'
    ensures forall i :: 0 <= i < |s| && 'A' <= s[i] <= 'Z' ==> r[i] as int == s[i] as int + 32
  {
    seq(|s|, i requires 0 <= i < |s| => LowerChar(s[i]))
  }

  lemma LowerAppend(a: string, b: string)
    ensures Lower(a + b) == Lower(a) + Lower(b)
  {
  }

  /** A text with no upper-case letter is its own lower case. */
  lemma LowerOfLowerCase(s: string)
    requires forall i :: 0 <= i < |s| ==> !('A' <= s[i] <= 'Z')
    ensures Lower(s) == s
  {
  }

  lemma LowerIdempotent(s: string)
    ensures Lower(Lower(s)) == Lower(s)
  {
  }

  lemma LowerKeepsSpace(a: string)
    requires AllSpace(a)
    ensures AllSpace(Lower(a))
  {
    forall i | 0 <= i < |a| ensures IsSpace(Lower(a)[i]) {
      assert Lower(a)[i] == LowerChar(a[i]);
    }
  }

  lemma LowerKeepsStripped(m: string)
    requires Stripped(m)
    ensures Stripped(Lower(m))
  {
    if m != [] {
      assert Lower(m)[0] == LowerChar(m[0]);
      assert Lower(m)[|m| - 1] == LowerChar(m[|m| - 1]);
    }
  }

  /** Lower-casing never creates or removes whitespace, so it commutes with `strip()`. */
  lemma StripLowerCommute(s: string)
    ensures Strip(Lower(s)) == Lower(Strip(s))
  {
    var a, b := StripDecompose(s);
    var m := Strip(s);
    LowerAppend(a + m, b);
    LowerAppend(a, m);
    LowerKeepsSpace(a);
    LowerKeepsSpace(b);
    LowerKeepsStripped(m);
    StripUnique(Lower(a), Lower(m), Lower(b));
  }

  // ---------------------------------------------------------------------------
  // SQL LIKE
  // ---------------------------------------------------------------------------

  /** SQL `s LIKE p`: `%` matches any run of characters, `_` any one character,
      every other pattern character itself. */
  function Like(s: string, p: string): bool
    decreases |s| + |p|
  {
    if |p| == 0 then |s| == 0
    else if p[0] == '%' then Like(s, p[1..]) || (|s| > 0 && Like(s[1..], p))
    else |s| > 0 && (p[0] == '_' || p[0] == s[0]) && Like(s[1..], p[1..])
  }

  /** `t` holds no character that LIKE (or its default escape) treats specially. */
  predicate NoWildcard(t: string) {
    forall i :: 0 <= i < |t| ==> t[i] != '%' && t[i] != '_' && t[i] != '\\'
  }

  predicate OccursAt(t: string, s: string, i: int) {
    0 <= i && i + |t| <= |s| && s[i..i + |t|] == t
  }

  predicate IsSubstring(t: string, s: string) {
    exists i :: 0 <= i <= |s| && OccursAt(t, s, i)
  }

  /** A string whose first character never appears in `s` does not occur in `s`. */
  lemma FirstCharAbsent(t: string, s: string)
    requires |t| > 0
    requires forall k :: 0 <= k < |s| ==> s[k] != t[0]
    ensures !IsSubstring(t, s)
  {
    forall i | 0 <= i <= |s|
      ensures !OccursAt(t, s, i)
    {
      if i + |t| <= |s| {
        assert s[i..i + |t|][0] == s[i];
      }
    }
  }

  predicate LikeFrom(s: string, q: string, i: int) {
    0 <= i <= |s| && Like(s[i..], q)
  }

  lemma {:induction false} LikePercentMatchesAll(s: string)
    ensures Like(s, "%")
  {
    if |s| > 0 {
      LikePercentMatchesAll(s[1..]);
    }
  }

  lemma {:induction false} LikePrefix(s: string, t: string)
    requires NoWildcard(t)
    ensures Like(s, t + "%") <==> t <= s
  {
    if |t| == 0 {
      assert t + "%" == "%";
      LikePercentMatchesAll(s);
    } else {
      assert (t + "%")[1..] == t[1..] + "%";
      assert NoWildcard(t[1..]) by {
        forall i | 0 <= i < |t[1..]| ensures t[1..][i] != '%' && t[1..][i] != '_' && t[1..][i] != '\\' {
          assert t[1..][i] == t[i + 1];
        }
      }
      if |s| > 0 {
        LikePrefix(s[1..], t[1..]);
        assert t <= s <==> t[0] == s[0] && t[1..] <= s[1..];
      }
    }
  }

  lemma {:induction false} LikeLeadingPercent(s: string, q: string)
    ensures Like(s, "%" + q) <==> exists i :: 0 <= i <= |s| && LikeFrom(s, q, i)
  {
    assert ("%" + q)[1..] == q;
    if |s| == 0 {
      if Like(s, q) {
        assert s[0..] == s;
        assert LikeFrom(s, q, 0);
      }
    } else {
      LikeLeadingPercent(s[1..], q);
      if Like(s, "%" + q) {
        if Like(s, q) {
          assert s[0..] == s;
          assert LikeFrom(s, q, 0);
        } else {
          assert Like(s[1..], "%" + q);
          var j :| 0 <= j <= |s[1..]| && LikeFrom(s[1..], q, j);
          assert s[1..][j..] == s[j + 1..];
          assert LikeFrom(s, q, j + 1);
        }
      }
      if exists i :: 0 <= i <= |s| && LikeFrom(s, q, i) {
        var i :| 0 <= i <= |s| && LikeFrom(s, q, i);
        if i == 0 {
          assert s[0..] == s;
        } else {
          assert s[1..][i - 1..] == s[i..];
          assert LikeFrom(s[1..], q, i - 1);
        }
      }
    }
  }

  /** A pattern `%t%` with a wildcard-free `t` is exactly a substring test. */
  lemma SurroundedLikeIsSubstring(s: string, t: string)
    requires NoWildcard(t)
    ensures Like(s, "%" + t + "%") <==> IsSubstring(t, s)
  {
    assert "%" + t + "%" == "%" + (t + "%");
    LikeLeadingPercent(s, t + "%");
    if Like(s, "%" + t + "%") {
      var i :| 0 <= i <= |s| && LikeFrom(s, t + "%", i);
      LikePrefix(s[i..], t);
      assert s[i..][..|t|] == s[i..i + |t|];
      assert OccursAt(t, s, i);
    }
    if IsSubstring(t, s) {
      var i :| 0 <= i <= |s| && OccursAt(t, s, i);
      LikePrefix(s[i..], t);
      assert s[i..][..|t|] == s[i..i + |t|];
      assert LikeFrom(s, t + "%", i);
    }
  }

  /** The empty search term (pattern `%%`) matches every string. */
  lemma EmptyTermMatchesAll(s: string)
    ensures Like(s, "%" + "" + "%")
  {
    assert "%" + "" + "%" == "%%";
    LikePercentMatchesAll(s);
  }

  // ---------------------------------------------------------------------------
  // str(int)
  // ---------------------------------------------------------------------------

  predicate IsDigit(c: char) {
    '0' <= c <= '9'
  }

  predicate AllDigits(s: string) {
    forall i :: 0 <= i < |s| ==> IsDigit(s[i])
  }

  function DigitChar(d: nat): char
    requires d < 10
  {
    ('0' as int + d) as char
  }

  /** Python's `str(n)` for a non-negative `n`: decimal digits without leading zeros. */
  function NatToString(n: nat): (r: string)
    ensures |r| >= 1 && AllDigits(r)
    ensures |r| > 1 ==> r[0] != '0'
  {
    if n < 10 then [DigitChar(n)] else NatToString(n / 10) + [DigitChar(n % 10)]
  }

  /** Python's `str(i)` for any integer. */
  function IntToString(i: int): (r: string)
    ensures |r| >= 1
    ensures r[0] == '-' <==> i < 0
  {
    if i < 0 then "-" + NatToString(-i) else NatToString(i)
  }

  function ParseNat(s: string): nat
    requires AllDigits(s)
  {
    if |s| == 0 then 0 else ParseNat(s[..|s| - 1]) * 10 + (s[|s| - 1] as int - '0' as int)
  }

  function ParseInt(s: string): int
    requires |s| >= 1
    requires s[0] == '-' ==> AllDigits(s[1..])
    requires s[0] != '-' ==> AllDigits(s)
  {
    if s[0] == '-' then -(ParseNat(s[1..]) as int) else ParseNat(s)
  }

  lemma {:induction false} ParseNatToString(n: nat)
    ensures ParseNat(NatToString(n)) == n
  {
    if n >= 10 {
      var r := NatToString(n);
      assert r[..|r| - 1] == NatToString(n / 10);
      ParseNatToString(n / 10);
    }
  }

  /** Reading back the decimal text of an integer gives the integer. */
  lemma ParseIntToString(i: int)
    ensures ParseInt(IntToString(i)) == i
  {
    if i < 0 {
      assert IntToString(i)[1..] == NatToString(-i);
      ParseNatToString(-i);
    } else {
      ParseNatToString(i);
    }
  }

  /** Distinct integers have distinct decimal texts. */
  lemma IntToStringInjective(a: int, b: int)
    requires IntToString(a) == IntToString(b)
    ensures a == b
  {
    ParseIntToString(a);
    ParseIntToString(b);
  }
}

=== FILE: trivia.dfy ===
/** The trivia API: listing, paging, category filtering, search and the quiz
    question picker. Every ORM query is a filter over the question table held as a
    sequence in table order; `Question.format()` is taken to be the record itself. */
module Trivia {
  import opened Wrappers
  import opened Seqs
  import opened Text

  /** Questions per page of GET /questions (the handler writes the literal 10). */
  const PageSize: nat := 10

  datatype Question = Question(id: int, question: string, answer: string, category: int, difficulty: int)

  /** A category row; `kind` is the source's `type` column. */
  datatype Category = Category(id: int, kind: string)

  // ---------------------------------------------------------------------------
  // Category map: {c.id: c.type for c in categories}
  // ---------------------------------------------------------------------------

  /** The id-to-type dictionary built from the category rows; as in a dict
      comprehension, a later row overwrites an earlier one with the same id. */
  function CategoryMap(cats: seq<Category>): (m: map<int, string>)
    ensures m.Keys == Ids(cats)
    ensures forall i :: 0 <= i < |cats| && LastWithId(cats, i) ==> m[cats[i].id] == cats[i].kind
  {
    if |cats| == 0 then map[]
    else
      var init := cats[..|cats| - 1];
      var last := cats[|cats| - 1];
      var m0 := CategoryMap(init);
      var m := m0[last.id := last.kind];
      IdsSnoc(init, last);
      assert cats == init + [last];
      assert forall i :: 0 <= i < |cats| - 1 && LastWithId(cats, i) ==> LastWithId(init, i) && cats[i] == init[i];
      m
  }

  /** The set of ids of `cats`. */
  function Ids(cats: seq<Category>): set<int> {
    set c | c in cats :: c.id
  }

  lemma IdsSnoc(init: seq<Category>, last: Category)
    ensures Ids(init + [last]) == Ids(init) + {last.id}
  {
    var cats := init + [last];
    assert forall c :: c in cats <==> c in init || c == last;
  }

  /** No later row of `cats` shares the id of row `i`. */
  predicate LastWithId(cats: seq<Category>, i: int)
    requires 0 <= i < |cats|
  {
    forall j :: i < j < |cats| ==> cats[j].id != cats[i].id
  }

  /** With unique category ids every category is listed under its own type. */
  lemma CategoryMapUnique(cats: seq<Category>)
    requires forall i, j :: 0 <= i < j < |cats| ==> cats[i].id != cats[j].id
    ensures forall c :: c in cats ==> c.id in CategoryMap(cats) && CategoryMap(cats)[c.id] == c.kind
  {
    forall c | c in cats
      ensures c.id in CategoryMap(cats) && CategoryMap(cats)[c.id] == c.kind
    {
      var i :| 0 <= i < |cats| && cats[i] == c;
      assert LastWithId(cats, i);
    }
  }

  // ---------------------------------------------------------------------------
  // GET /questions: one page of the table
  // ---------------------------------------------------------------------------

  /** Python's normalisation of a slice bound against a sequence of length `len`. */
  function PyIndex(i: int, len: nat): (r: nat)
    ensures r <= len
    ensures 0 <= i <= len ==> r == i
  {
    if i < 0 then (if len + i < 0 then 0 else len + i)
    else if i > len then len
    else i
  }

  /** Python's `s[start:stop]`. */
  function PySlice<T>(s: seq<T>, start: int, stop: int): (r: seq<T>)
    ensures |r| <= |s|
    ensures 0 <= start <= stop ==> r == s[PyIndex(start, |s|)..PyIndex(stop, |s|)]
  {
    var a := PyIndex(start, |s|);
    var b := PyIndex(stop, |s|);
    if a < b then s[a..b] else []
  }

  function Min(a: int, b: int): int {
    if a < b then a else b
  }

  /** The questions of page `page`: `questions[(page-1)*10 : page*10]`. */
  function PageOf(questions: seq<Question>, page: int): (r: seq<Question>)
    ensures |r| <= PageSize
    ensures page >= 1 ==>
      r == questions[Min((page - 1) * PageSize, |questions|)..Min(page * PageSize, |questions|)]
    ensures page == 0 ==> r == []
  {
    PySlice(questions, (page - 1) * PageSize, page * PageSize)
  }

  datatype QuestionsPage = QuestionsPage(
    success: bool,
    questions: seq<Question>,
    totalQuestions: nat,
    categories: map<int, string>,
    currentCategory: int)

  /** GET /questions?page=`page`: one page of the table, the full count and the category map. */
  function ListQuestions(table: seq<Question>, cats: seq<Category>, page: int): (r: QuestionsPage)
    ensures r.success
    ensures |r.questions| <= PageSize
    ensures r.totalQuestions == |table|
    ensures forall q :: q in r.questions ==> q in table
    ensures page >= 1 ==>
      r.questions == table[Min((page - 1) * PageSize, |table|)..Min(page * PageSize, |table|)]
    ensures page == 0 ==> r.questions == []
    ensures page < 0 ==>
      r.questions == table[PyIndex((page - 1) * PageSize, |table|)..PyIndex(page * PageSize, |table|)]
    ensures r.categories.Keys == Ids(cats)
    ensures r.categories == CategoryMap(cats)
    ensures r.currentCategory == 1
  {
    QuestionsPage(true, PageOf(table, page), |table|, CategoryMap(cats), 1)
  }

  /** The pages 1..m in order. */
  function Pages(questions: seq<Question>, m: nat): seq<Question> {
    if m == 0 then [] else Pages(questions, m - 1) + PageOf(questions, m)
  }

  /** Reading pages 1, 2, ..., m in turn shows the table's first 10*m questions,
      each exactly once and in table order. */
  lemma {:induction false} PagesTile(questions: seq<Question>, m: nat)
    ensures Pages(questions, m) == questions[..Min(m * PageSize, |questions|)]
  {
    if m > 0 {
      PagesTile(questions, m - 1);
      var lo := Min((m - 1) * PageSize, |questions|);
      var hi := Min(m * PageSize, |questions|);
      assert questions[..lo] + questions[lo..hi] == questions[..hi];
    }
  }

  /** Question number `i` (from 0) is shown on page `i / 10 + 1`, at position `i % 10`. */
  lemma QuestionOnItsPage(questions: seq<Question>, i: nat)
    requires i < |questions|
    ensures PageOf(questions, i / PageSize + 1)[i % PageSize] == questions[i]
  {
  }

  /** A negative page counts from the end of the table, as Python slicing does:
      with 25 questions, page -1 is questions 5..14. */
  lemma NegativePageCountsFromEnd(questions: seq<Question>)
    requires |questions| == 25
    ensures PageOf(questions, -1) == questions[5..15]
  {
  }

  // ---------------------------------------------------------------------------
  // GET /categories/<cat_id>/questions and POST /questions-search
  // ---------------------------------------------------------------------------

  datatype QuestionList = QuestionList(questions: seq<Question>, totalQuestions: nat, currentCategory: int)

  /** GET /categories/`catId`/questions: the questions of that category in table order.
      An unknown category is not an error: it lists nothing. */
  function QuestionsByCategory(table: seq<Question>, catId: int): (r: QuestionList)
    ensures forall q :: q in r.questions <==> q in table && q.category == catId
    ensures multiset(r.questions) <= multiset(table)
    ensures r.totalQuestions == |r.questions|
    ensures r.currentCategory == catId
  {
    var qs := Filter(table, OfCategory(catId));
    QuestionList(qs, |qs|, catId)
  }

  function OfCategory(catId: int): Question -> bool {
    (q: Question) => q.category == catId
  }

  /** The WHERE clause of the search: `lower(question) LIKE '%' || lower(term) || '%'`. */
  predicate SearchMatches(term: string, q: Question) {
    Like(Lower(q.question), "%" + Lower(term) + "%")
  }

  function Matcher(term: string): Question -> bool {
    q => SearchMatches(term, q)
  }

  /** POST /questions-search: the questions whose lower-cased text matches the
      pattern built from the lower-cased term, in table order. */
  function SearchQuestions(table: seq<Question>, term: string): (r: QuestionList)
    ensures forall q :: q in r.questions <==> q in table && SearchMatches(term, q)
    ensures multiset(r.questions) <= multiset(table)
    ensures r.totalQuestions == |r.questions|
    ensures r.currentCategory == 1
  {
    var qs := Filter(table, Matcher(term));
    QuestionList(qs, |qs|, 1)
  }

  datatype SearchReply = SearchOk(list: QuestionList) | SearchServerError

  /** The handler around the search: `body['searchTerm']` raises when the field is
      absent (or the body is not JSON), and the unhandled error is a 500. */
  function SearchRequest(table: seq<Question>, searchTerm: Option<string>): (r: SearchReply)
    ensures r.SearchServerError? <==> searchTerm.None?
    ensures r.SearchOk? ==> forall q :: q in r.list.questions <==> q in table && SearchMatches(searchTerm.value, q)
    ensures r.SearchOk? ==> multiset(r.list.questions) <= multiset(table)
    ensures r.SearchOk? ==> r.list.totalQuestions == |r.list.questions| && r.list.currentCategory == 1
  {
    match searchTerm
    case None => SearchServerError
    case Some(term) => SearchOk(SearchQuestions(table, term))
  }

  lemma LowerKeepsNoWildcard(t: string)
    requires NoWildcard(t)
    ensures NoWildcard(Lower(t))
  {
    forall i | 0 <= i < |t|
      ensures Lower(t)[i] != '%' && Lower(t)[i] != '_' && Lower(t)[i] != '\\'
    {
      assert Lower(t)[i] == LowerChar(t[i]);
    }
  }

  /** For a term free of LIKE wildcards the search is a case-insensitive substring
      search; a term with `%` or `_` in it is a pattern, not a literal. */
  lemma SearchIsCaseInsensitiveSubstring(table: seq<Question>, term: string, q: Question)
    requires NoWildcard(term)
    ensures q in SearchQuestions(table, term).questions
        <==> q in table && IsSubstring(Lower(term), Lower(q.question))
  {
    LowerKeepsNoWildcard(term);
    SurroundedLikeIsSubstring(Lower(q.question), Lower(term));
  }

  /** The empty search term lists the whole table. */
  lemma EmptySearchListsAll(table: seq<Question>)
    ensures SearchQuestions(table, "").questions == table
  {
    forall q: Question ensures SearchMatches("", q) {
      EmptyTermMatchesAll(Lower(q.question));
    }
    FilterAll(table, Matcher(""));
  }

  // ---------------------------------------------------------------------------
  // The quiz picker: get_random_question
  // ---------------------------------------------------------------------------

  predicate SortedById(s: seq<Question>) {
    forall i, j :: 0 <= i < j < |s| ==> s[i].id <= s[j].id
  }

  function InsertById(q: Question, s: seq<Question>): (r: seq<Question>)
    requires SortedById(s)
    ensures SortedById(r)
    ensures multiset(r) == multiset(s) + multiset{q}
  {
    if |s| == 0 then [q]
    else if q.id <= s[0].id then [q] + s
    else
      var t := InsertById(q, s[1..]);
      assert forall j :: 0 <= j < |s[1..]| ==> s[0].id <= s[1..][j].id;
      LowerBoundKept(s[0].id, s[1..], q, t);
      SortedCons(s[0], t);
      assert s == [s[0]] + s[1..];
      [s[0]] + t
  }

  /** A lower bound on the ids of `s` and of `q` bounds every id of a sequence holding
      the same questions as `s` plus `q`. */
  lemma LowerBoundKept(lo: int, s: seq<Question>, q: Question, t: seq<Question>)
    requires forall j :: 0 <= j < |s| ==> lo <= s[j].id
    requires lo <= q.id
    requires multiset(t) == multiset(s) + multiset{q}
    ensures forall j :: 0 <= j < |t| ==> lo <= t[j].id
  {
    forall j | 0 <= j < |t| ensures lo <= t[j].id {
      assert t[j] in multiset(t);
      if t[j] != q {
        assert t[j] in multiset(s);
        var k :| 0 <= k < |s| && s[k] == t[j];
      }
    }
  }

  lemma SortedCons(x: Question, t: seq<Question>)
    requires SortedById(t)
    requires forall j :: 0 <= j < |t| ==> x.id <= t[j].id
    ensures SortedById([x] + t)
  {
    forall i, j | 0 <= i < j < |[x] + t| ensures ([x] + t)[i].id <= ([x] + t)[j].id {
      if i > 0 {
        assert ([x] + t)[i] == t[i - 1];
      }
      assert ([x] + t)[j] == t[j - 1];
    }
  }

  /** Sorting a sequence already in id order leaves it as it is. */
  lemma {:induction false} SortOfSorted(s: seq<Question>)
    requires SortedById(s)
    ensures SortById(s) == s
  {
    if |s| > 0 {
      var t := s[1..];
      assert SortedById(t);
      SortOfSorted(t);
      assert SortById(s) == InsertById(s[0], SortById(t));
      InsertAtFront(s[0], t);
      assert [s[0]] + t == s;
    }
  }

  lemma InsertAtFront(q: Question, s: seq<Question>)
    requires SortedById(s)
    requires |s| == 0 || q.id <= s[0].id
    ensures InsertById(q, s) == [q] + s
  {
  }

  /** `ORDER BY id`. */
  function SortById(s: seq<Question>): (r: seq<Question>)
    ensures SortedById(r)
    ensures multiset(r) == multiset(s)
  {
    if |s| == 0 then []
    else
      assert s == [s[0]] + s[1..];
      InsertById(s[0], SortById(s[1..]))
  }

  /** Whether question `q` belongs to the pool of category `catId` (0 or less: all). */
  predicate InScope(catId: int, q: Question) {
    catId <= 0 || q.category == catId
  }

  function ScopeOf(catId: int): Question -> bool {
    q => InScope(catId, q)
  }

  /** The candidate pool of a quiz round, ordered by id. */
  function Pool(table: seq<Question>, catId: int): (pool: seq<Question>)
    ensures SortedById(pool)
    ensures multiset(pool) == multiset(Filter(table, ScopeOf(catId)))
    ensures forall q :: q in pool <==> q in table && (catId > 0 ==> q.category == catId)
  {
    var scoped := Filter(table, ScopeOf(catId));
    var pool := SortById(scoped);
    assert forall q :: q in pool <==> q in multiset(scoped);
    pool
  }

  /** Every draw is a legal result of `random.randint(0, n - 1)`. */
  predicate DrawsInRange(draws: seq<nat>, n: nat) {
    forall i :: 0 <= i < |draws| ==> draws[i] < n
  }

  predicate IsSuffix(t: seq<nat>, s: seq<nat>) {
    |t| <= |s| && s[|s| - |t|..] == t
  }

  /** The inner `while pool[number].id == p: number = randint(...)` loop: re-draws
      until the index points at a question whose id is not `p`. Returns the final
      index and the unused draws, or None when the draws run out first. */
  function Reroll(pool: seq<Question>, p: int, number: nat, draws: seq<nat>): (r: Option<(nat, seq<nat>)>)
    requires number < |pool| && DrawsInRange(draws, |pool|)
    ensures r.Some? ==> r.value.0 < |pool| && pool[r.value.0].id != p
    ensures r.Some? ==> IsSuffix(r.value.1, draws) && DrawsInRange(r.value.1, |pool|)
    ensures r.None? ==> pool[number].id == p && forall i :: 0 <= i < |draws| ==> pool[draws[i]].id == p
    decreases |draws|
  {
    if pool[number].id != p then Some((number, draws))
    else if |draws| == 0 then None
    else
      var r := Reroll(pool, p, draws[0], draws[1..]);
      assert r.Some? ==> draws[|draws| - |r.value.1|..] == draws[1..][|draws[1..]| - |r.value.1|..];
      assert forall i :: 1 <= i < |draws| ==> draws[i] == draws[1..][i - 1];
      r
  }

  /** The outer `for p in prev_questions` loop: runs the re-draw loop against each
      previous id in turn. Only the last pass's guarantee survives. */
  function RerollAll(pool: seq<Question>, prev: seq<int>, number: nat, draws: seq<nat>): (r: Option<(nat, seq<nat>)>)
    requires number < |pool| && DrawsInRange(draws, |pool|)
    ensures r.Some? ==> r.value.0 < |pool| && IsSuffix(r.value.1, draws) && DrawsInRange(r.value.1, |pool|)
    ensures r.Some? && |prev| > 0 ==> pool[r.value.0].id != prev[|prev| - 1]
    ensures |prev| == 0 ==> r == Some((number, draws))
    decreases |prev|
  {
    if |prev| == 0 then Some((number, draws))
    else
      match Reroll(pool, prev[0], number, draws)
      case None => None
      case Some((n1, d1)) =>
        var r := RerollAll(pool, prev[1..], n1, d1);
        assert |prev| > 1 ==> prev[|prev| - 1] == prev[1..][|prev[1..]| - 1];
        if r.Some? then
          SuffixTrans(r.value.1, d1, draws);
          r
        else r
  }

  lemma SuffixTrans(t: seq<nat>, d: seq<nat>, s: seq<nat>)
    requires IsSuffix(t, d) && IsSuffix(d, s)
    ensures IsSuffix(t, s)
  {
    assert s[|s| - |t|..] == s[|s| - |d|..][|d| - |t|..];
  }

  /** Outcome of one call of the picker. */
  datatype Pick =
    | Crash                                    // randint(0, -1) on an empty pool raises
    | Diverged                                 // the supplied draws ran out mid-loop
    | Picked(question: Question, forceEnd: bool)

  /** `get_random_question(catId, prev)` with the random draws supplied in order. */
  function PickQuestion(table: seq<Question>, catId: int, prev: seq<int>, draws: seq<nat>): (r: Pick)
    requires DrawsInRange(draws, |Pool(table, catId)|)
    ensures r.Crash? <==> |Pool(table, catId)| == 0
    ensures r.Picked? ==> r.question in Pool(table, catId)
    ensures r.Picked? ==> r.forceEnd == (|Pool(table, catId)| == |prev| + 1)
    ensures r.Picked? && 0 < |prev| < |Pool(table, catId)| ==> r.question.id != prev[|prev| - 1]
    ensures r.Diverged? ==> |draws| == 0 || 0 < |prev| < |Pool(table, catId)|
  {
    PickFrom(Pool(table, catId), prev, draws)
  }

  /** The picker once the pool has been fetched. */
  function PickFrom(pool: seq<Question>, prev: seq<int>, draws: seq<nat>): (r: Pick)
    requires DrawsInRange(draws, |pool|)
    ensures r.Crash? <==> |pool| == 0
    ensures r.Picked? ==> r.question in pool
    ensures r.Picked? ==> r.forceEnd == (|pool| == |prev| + 1)
    ensures r.Picked? && 0 < |prev| < |pool| ==> r.question.id != prev[|prev| - 1]
    ensures r.Diverged? ==> |draws| == 0 || 0 < |prev| < |pool|
  {
    var n := |pool|;
    if n == 0 then Crash
    else if |draws| == 0 then Diverged
    else if |prev| < n then
      match RerollAll(pool, prev, draws[0], draws[1..])
      case None => Diverged
      case Some((i, _)) => Picked(pool[i], n == |prev| + 1)
    else Picked(pool[draws[0]], n == |prev| + 1)
  }

  /** When at least as many ids were seen as the pool holds, nothing is re-drawn: the
      first draw's question comes back, seen or not, and the round is not ended. */
  lemma NoRerollWhenPoolSeen(table: seq<Question>, catId: int, prev: seq<int>, draws: seq<nat>)
    requires DrawsInRange(draws, |Pool(table, catId)|)
    requires 0 < |Pool(table, catId)| <= |prev| && |draws| > 0
    ensures PickQuestion(table, catId, prev, draws) == Picked(Pool(table, catId)[draws[0]], false)
  {
  }

  /** A first question (nothing seen yet) is the first draw, whatever the pool. */
  lemma FirstQuestionIsFirstDraw(table: seq<Question>, catId: int, draws: seq<nat>)
    requires DrawsInRange(draws, |Pool(table, catId)|)
    requires |Pool(table, catId)| > 0 && |draws| > 0
    ensures PickQuestion(table, catId, [], draws) == Picked(Pool(table, catId)[draws[0]], |Pool(table, catId)| == 1)
  {
  }

  lemma {:induction false} RerollExtends(pool: seq<Question>, p: int, number: nat, draws: seq<nat>, more: seq<nat>)
    requires number < |pool| && DrawsInRange(draws + more, |pool|)
    requires DrawsInRange(draws, |pool|)
    requires Reroll(pool, p, number, draws).Some?
    ensures Reroll(pool, p, number, draws + more)
         == Some((Reroll(pool, p, number, draws).value.0, Reroll(pool, p, number, draws).value.1 + more))
    decreases |draws|
  {
    if pool[number].id != p {
    } else {
      DrawsTail(draws, more, |pool|);
      RerollExtends(pool, p, draws[0], draws[1..], more);
    }
  }

  lemma {:induction false} RerollAllExtends(pool: seq<Question>, prev: seq<int>, number: nat, draws: seq<nat>, more: seq<nat>)
    requires number < |pool| && DrawsInRange(draws + more, |pool|)
    requires DrawsInRange(draws, |pool|)
    requires RerollAll(pool, prev, number, draws).Some?
    ensures RerollAll(pool, prev, number, draws + more)
         == Some((RerollAll(pool, prev, number, draws).value.0, RerollAll(pool, prev, number, draws).value.1 + more))
    decreases |prev|
  {
    if |prev| > 0 {
      var (n1, d1) := Reroll(pool, prev[0], number, draws).value;
      RerollExtends(pool, prev[0], number, draws, more);
      assert DrawsInRange(d1 + more, |pool|) by {
        forall i | 0 <= i < |d1 + more| ensures (d1 + more)[i] < |pool| {
          if i >= |d1| {
            assert (d1 + more)[i] == (draws + more)[|draws| + i - |d1|];
          }
        }
      }
      RerollAllExtends(pool, prev[1..], n1, d1, more);
    }
  }

  /** The picker reads its draws strictly in order and stops reading once it has an
      answer: supplying further draws never changes a result already reached. */
  lemma PickIgnoresUnusedDraws(table: seq<Question>, catId: int, prev: seq<int>, draws: seq<nat>, more: seq<nat>)
    requires DrawsInRange(draws + more, |Pool(table, catId)|)
    requires DrawsInRange(draws, |Pool(table, catId)|)
    requires PickQuestion(table, catId, prev, draws).Picked?
    ensures PickQuestion(table, catId, prev, draws + more) == PickQuestion(table, catId, prev, draws)
  {
    PickFromIgnoresUnusedDraws(Pool(table, catId), prev, draws, more);
  }

  lemma PickFromIgnoresUnusedDraws(pool: seq<Question>, prev: seq<int>, draws: seq<nat>, more: seq<nat>)
    requires DrawsInRange(draws + more, |pool|)
    requires DrawsInRange(draws, |pool|)
    requires PickFrom(pool, prev, draws).Picked?
    ensures PickFrom(pool, prev, draws + more) == PickFrom(pool, prev, draws)
  {
    DrawsTail(draws, more, |pool|);
    if |prev| < |pool| {
      RerollAllExtends(pool, prev, draws[0], draws[1..], more);
    }
  }

  /** Appending draws keeps the first one and the rest in range. */
  lemma DrawsTail(draws: seq<nat>, more: seq<nat>, n: nat)
    requires |draws| > 0 && DrawsInRange(draws + more, n)
    ensures (draws + more)[0] == draws[0]
    ensures (draws + more)[1..] == draws[1..] + more
    ensures DrawsInRange(draws[1..] + more, n)
  {
    assert (draws + more)[1..] == draws[1..] + more;
    forall i | 0 <= i < |draws[1..] + more| ensures (draws[1..] + more)[i] < n {
      assert (draws[1..] + more)[i] == (draws + more)[i + 1];
    }
  }

  /** Three questions of one category, ids 1, 2, 3, in table order. */
  function SampleTable(): seq<Question> {
    [Question(1, "q1", "a1", 1, 1), Question(2, "q2", "a2", 1, 1), Question(3, "q3", "a3", 1, 1)]
  }

  /** Only the last previous id is avoided: after ids 1 and 2 were seen, the draws
      0, 1, 0 bring question 1 back (the pass against 1 moves to index 1, the pass
      against 2 moves back to index 0), and the round is flagged as ending. */
  lemma RepeatOfEarlierQuestion()
    ensures PickFrom(SampleTable(), [1, 2], [0, 1, 0]) == Picked(SampleTable()[0], true)
    ensures SampleTable()[0].id in [1, 2]
    ensures Pool(SampleTable(), 1) == SampleTable()
  {
    SamplePool();
    SampleRepeat();
  }

  lemma SampleRepeat()
    ensures PickFrom(SampleTable(), [1, 2], [0, 1, 0]) == Picked(SampleTable()[0], true)
  {
    var t := SampleTable();
    assert Reroll(t, 1, 1, [0]) == Some((1, [0]));
    assert Reroll(t, 1, 0, [1, 0]) == Some((1, [0]));
    assert Reroll(t, 2, 0, []) == Some((0, []));
    assert Reroll(t, 2, 1, [0]) == Some((0, []));
    assert RerollAll(t, [2], 1, [0]) == Some((0, []));
    assert RerollAll(t, [1, 2], 0, [1, 0]) == Some((0, []));
  }

  lemma SamplePool()
    ensures Pool(SampleTable(), 1) == SampleTable()
  {
    SampleScoped();
    SampleSorted();
  }

  lemma SampleScoped()
    ensures Filter(SampleTable(), ScopeOf(1)) == SampleTable()
  {
    var t := SampleTable();
    assert forall i :: 0 <= i < |t| ==> ScopeOf(1)(t[i]);
    FilterAll(t, ScopeOf(1));
  }

  lemma SampleSorted()
    ensures SortById(SampleTable()) == SampleTable()
  {
    assert SortedById(SampleTable());
    SortOfSorted(SampleTable());
  }

  /** Pool {1: cat 1, 2: cat 1, 3: cat 2}, category 1, question 1 seen: whatever the
      draws, a completed pick is question 2 and reports `forceEnd`. */
  lemma OneSeenOfTwo(draws: seq<nat>)
    requires DrawsInRange(draws, 2)
    ensures
      var r := PickFrom(MixedPair(), [1], draws);
      r.Picked? ==> r.question == MixedPair()[1] && r.forceEnd
    ensures Pool(MixedTable(), 1) == MixedPair()
  {
    OneSeenPick(draws);
    MixedPool();
  }

  lemma OneSeenPick(draws: seq<nat>)
    requires DrawsInRange(draws, 2)
    ensures
      var r := PickFrom(MixedPair(), [1], draws);
      r.Picked? ==> r.question == MixedPair()[1] && r.forceEnd
  {
    var pair := MixedPair();
    var r := PickFrom(pair, [1], draws);
    if r.Picked? {
      assert r.question == pair[0] || r.question == pair[1];
    }
  }

  /** Questions 1 and 2 of category 1. */
  function MixedPair(): seq<Question> {
    [Question(1, "q1", "a1", 1, 1), Question(2, "q2", "a2", 1, 1)]
  }

  /** The same two questions and question 3 of category 2. */
  function MixedTable(): seq<Question> {
    MixedPair() + [Question(3, "q3", "a3", 2, 1)]
  }

  lemma MixedPool()
    ensures Pool(MixedTable(), 1) == MixedPair()
  {
    MixedScoped();
    MixedSorted();
  }

  lemma MixedScoped()
    ensures Filter(MixedTable(), ScopeOf(1)) == MixedPair()
  {
    FilterAppend(MixedPair(), [Question(3, "q3", "a3", 2, 1)], ScopeOf(1));
    PairScoped();
    OtherOutOfScope();
  }

  lemma PairScoped()
    ensures Filter(MixedPair(), ScopeOf(1)) == MixedPair()
  {
    assert forall i :: 0 <= i < 2 ==> ScopeOf(1)(MixedPair()[i]);
    FilterAll(MixedPair(), ScopeOf(1));
  }

  lemma OtherOutOfScope()
    ensures Filter([Question(3, "q3", "a3", 2, 1)], ScopeOf(1)) == []
  {
    assert [Question(3, "q3", "a3", 2, 1)][1..] == [];
  }

  lemma MixedSorted()
    ensures SortById(MixedPair()) == MixedPair()
  {
    assert SortedById(MixedPair());
    SortOfSorted(MixedPair());
  }

  // ---------------------------------------------------------------------------
  // POST /quizzes
  // ---------------------------------------------------------------------------

  /** The `quiz_category` object of the request; only its `id` is read. */
  datatype QuizCategory = QuizCategory(id: Option<int>)

  /** The request body; None for a field that is absent (or a body that is not JSON). */
  datatype QuizRequest = QuizRequest(quizCategory: Option<QuizCategory>, previousQuestions: Option<seq<int>>)

  /** Every field the handler reads is there. */
  predicate Complete(req: QuizRequest) {
    req.quizCategory.Some? && req.quizCategory.value.id.Some? && req.previousQuestions.Some?
  }

  /** The reply of POST /quizzes: the picked question and `forceEnd` with status 200
      (the caller's list of previous ids is appended to but not sent back), or
      status 500 from an unhandled error: a missing request field or an empty pool. */
  datatype QuizReply =
    | QuizOk(question: Question, forceEnd: bool)
    | QuizServerError
      /** The draws ran out before the re-roll loop ended (the picker's `Diverged`).
          The server sends nothing: it is still drawing. */
    | QuizNoAnswer

  /** The HTTP status of a reply. `QuizNoAnswer` has none; 0 is a placeholder
      that no HTTP status equals. */
  function Status(r: QuizReply): int {
    match r
    case QuizOk(_, _) => 200
    case QuizServerError => 500
    case QuizNoAnswer => 0
  }

  /** `play_quiz`: one quiz round for the request. A missing field raises a
      KeyError, which nothing catches: a 500. */
  function PlayQuiz(table: seq<Question>, req: QuizRequest, draws: seq<nat>): (r: QuizReply)
    requires Complete(req) ==> DrawsInRange(draws, |Pool(table, req.quizCategory.value.id.value)|)
    ensures !Complete(req) ==> r == QuizServerError
    ensures Complete(req) ==>
      var catId := req.quizCategory.value.id.value;
      && (Status(r) == 500 <==> |Pool(table, catId)| == 0)
      && (r.QuizOk? ==> r.question in table)
      && (r.QuizOk? && catId > 0 ==> r.question.category == catId)
      && (r.QuizOk? ==> r.forceEnd == (|Pool(table, catId)| == |req.previousQuestions.value| + 1))
  {
    if !Complete(req) then QuizServerError
    else
      match PickQuestion(table, req.quizCategory.value.id.value, req.previousQuestions.value, draws)
      case Crash => QuizServerError
      case Diverged => QuizNoAnswer
      case Picked(q, e) => QuizOk(q, e)
  }
}

=== FILE: wrappers.dfy ===
/** Option type shared by the three applications: a lookup that may find nothing,
    a request field that may be absent or JSON null. */
module Wrappers {

  datatype Option<+T> = None | Some(value: T)
}
